=== FILE: README.md ===
# Fireverse points bot — a Dafny model of its transfer and bookkeeping logic

The repository has two Node.js scripts.

- `index.js` is a music-listening bot. It runs one bot per wallet. Each bot:
  - plays recommended songs, up to a daily limit;
  - keeps a status board of one progress line per account;
  - once an account reaches level 5 and score 2000, splits the sendable part of its score evenly over the configured recipients and sends each recipient its share with a retry loop.
- `tf.js` is a drain script. It collects session tokens, checks the target account once, then sends each token's largest affordable balance to the target, stepping the amount down one point after every refusal.

This project models the pure-integer core of both scripts, together with the bookkeeping rules around it. Every remote call becomes an oracle input, and a missing oracle entry counts as a failed call. The modules are:

| file | module | models |
|---|---|---|
| `wrappers.dfy` | `Wrappers` | `Option` and `Result` |
| `digits.dfy` | `Digits` | decimal rendering, and the first digit run of a name (`name.match(/\d+/)` plus `parseInt`) |
| `text.dfy` | `Text` | `split`, `join` and ECMAScript `trim` |
| `fees.dfy` | `Fees` | `calculateFee` and `computeMaxSendAmount` (the same in both scripts) |
| `retry.dfy` | `Retry` | the bounded retry loop shared by both scripts. Its policy is 5 attempts with a 10% cut (`index.js`) or 10 attempts minus one point (`tf.js`) |
| `transfer.dfy` | `Transfer` | `index.js` `sendPoints`: the gate, the even split, the per-recipient retry and the score charge |
| `drain.dfy` | `Drain` | `tf.js` `readTokens` dedup, `processToken` and `processAllTokens` |
| `clock.dfy` | `Clock` | `formatTime` |
| `status.dfy` | `StatusBoard` | `log`: the per-account line buffer, and its redraw ordered by account number |
| `session.dfy` | `Session` | `playSession` and `startDailyLoop`: played ids, daily count, listening time, day rollover |
| `credentials.dfy` | `Credentials` | `index.js` `readTokens`: key-line filter, `Wallet-n` naming, the failure when no key logs in |

The remote side is modelled as follows:

- A transfer attempt's answer is a `bool`. A thrown request is `false`.
- A balance read is an `Option<int>`. A throw is `None`.
- A song's details and play-start answer are a `Session.Reply`.
- A login is an `Option<string>`. A throw is `None`.

## Model

| member | source | states |
|---|---|---|
| Digits.FirstNumber | index.js:151-152 | `name.match(/\d+/)` finds nothing exactly when the name has no digit; `Digits.FirstRun` states that otherwise it reads the first maximal digit run, whatever follows it |
| Fees.Fee | index.js:242-244 | The fee is `floor(amount / 10)`: ten fees fit in the amount and eleven do not. For a non-negative amount it lies between 0 and the amount, so the fee of 0 is 0 |
| Fees.MaxSendable | tf.js:83-97 | An independent closed form of the largest amount whose amount plus fee fits in the balance. For a non-negative balance it is within `[0, balance]`, affordable, and one more is not. It is positive exactly when the balance is |
| Fees.BoundaryIsGreatest | index.js:246-260 | An affordable amount whose successor is unaffordable bounds every affordable amount: `x` is affordable iff `x <= r` |
| Fees.BoundaryUnique | index.js:246-260 | Two such boundaries coincide, so the search result is uniquely determined |
| Fees.CostMonotone | index.js:311-312 | The total deduction `amount + fee` grows strictly with the amount |
| Fees.ComputeMaxSendAmount | index.js:246-260 | The binary search returns the greatest affordable amount in `[0, balance]`, equal to the closed form. It returns 0 for a negative balance, where the loop never runs |
| Fees.MaxSendableOf1000 | index.js:246-260 | A balance of 1000 can send 909 |
| Retry.ShrinkTenth | index.js:359 | `Math.floor(x * 0.9)` read exactly: `10y <= 9x < 10y + 10`, so a positive amount shrinks to a smaller non-negative one |
| Retry.ShrinkOne | tf.js:144 | `sendAmount--`: a positive amount shrinks to a smaller non-negative one |
| Retry.TrailLength | index.js:310 | A loop never makes more attempts than its budget |
| Retry.TrailPositive | index.js:310 | Every amount tried is positive, and the first one is the starting amount |
| Retry.TrailDecreasing | index.js:358-360 | After each refusal the next amount is the shrink of the last, strictly smaller, never above the start |
| Retry.TrailStopsAtZero | index.js:310 | A loop that ends early ends because the next amount is no longer positive |
| Retry.DecayOf909 | index.js:302-361 | Always refused, 909 points are tried as 909, 818, 736, 662, 595 |
| Retry.DecrementTrail | tf.js:144 | Under the `tf.js` policy the `i`-th attempt sends exactly the start minus `i` |
| Retry.TrailAffordable | tf.js:144-146 | Shrinking never makes an affordable amount unaffordable |
| Retry.OutcomeBounds | index.js:331-334 | A delivered amount is one of the amounts tried, hence between 1 and the starting amount |
| Retry.RetryLoop | index.js:302-361 | The loop tries a prefix of the all-refused trail, at most the budget. Every attempt but the last was refused. It succeeds iff the last attempt was accepted, and it tries the whole trail when nothing is accepted. Its result is the reference outcome: the first accepted amount of the trail |
| Transfer.Eligible | index.js:292 | The gate `level >= 5 && score >= 2000`. It carries no contract of its own; `Transfer.SendPoints` states that nothing happens when it fails |
| Transfer.Share | index.js:296 | `Math.floor(maxSendAmount / targetCount)`. It carries no contract of its own; `Transfer.ShareBounds` states its quotient bounds |
| Transfer.Cost | index.js:311-312 | Amount plus fee for a delivery, 0 otherwise. It carries no contract of its own; `Transfer.WithinBudget` and `Transfer.Distribute` state what the charges add up to |
| Transfer.ShareBounds | index.js:294-296 | The share is the quotient of an even split. `count` shares fit in the total and the remainder is below `count` |
| Transfer.FeeOfShares | index.js:296 | `count * floor(s / 10) <= floor(count * s / 10)`: the fees of equal shares never exceed the fee of their sum |
| Transfer.SplitAffordable | index.js:294-296 | Charging every recipient its full share plus fee costs at most the split total plus its fee |
| Transfer.OfferShare | index.js:302-367 | One recipient's retry loop from the share: its result is the reference outcome, a delivered amount is between 1 and the share, and its cost is at most the share plus its fee |
| Transfer.OffersMeaning | index.js:301-361 | Recipient `j` gets the retry outcome on its own replies, starting from the share. A delivered amount is between 1 and the share |
| Transfer.WithinBudget | index.js:351 | Any pattern of deliveries of at most a share each takes no more than the score from the score. The score never goes negative |
| Transfer.Distribute | index.js:292-374 | Every recipient is served in order from the same share. The remaining score is the starting score minus every accepted amount and its fee, and stays non-negative. The result is true iff some recipient received points |
| Transfer.SendPoints | index.js:281-378 | With no recipients, or with level below 5 or score below 2000, it returns false and changes nothing. Otherwise it gives the `Distribute` result under the 5-attempt, 10%-cut policy |
| Drain.Dedup | tf.js:16-26 | The collected tokens are pairwise distinct, and a string is collected iff it was matched |
| Drain.DedupOrder | tf.js:16-26 | Collected tokens keep first-seen order |
| Drain.InsertionOrder | tf.js:16-26 | Adding the matches one by one to a set, and listing them in insertion order, gives the reference dedup |
| Drain.CollectTokens | tf.js:14-40 | With no match the run stops with `NoTokens`. Otherwise the result is the dedup of the trimmed matches, and it is non-empty |
| Drain.ProcessToken | tf.js:114-162 | A failed balance read or nothing affordable means no attempt and no change. Otherwise the amounts tried are a prefix of the decrementing trail from the largest affordable amount: attempt `i` sends that amount minus `i`, every amount is positive, and there are at most 10 attempts. Unless the last attempt is accepted, the whole trail is tried, so the loop stops only on success, after 10 attempts or at 0. When the last attempt is accepted, `totalPointsSent` grows by exactly its amount; otherwise it is unchanged. The accepted amount is at least 1, within 9 of the maximum, and affordable |
| Drain.DrainedBounds | tf.js:134-139 | A token gives away nothing negative and never more than its positive balance |
| Drain.DrainedUpToBounds | tf.js:181-184 | The whole run sends no more than the tokens held together |
| Drain.DrainAll | tf.js:181-184 | The token loop reports the sum of what each token sent, in order, and that sum is between 0 and what the tokens held |
| Drain.ProcessAllTokens | tf.js:165-188 | It stops with `NoTokens` iff nothing matched, and with `UnknownTarget` iff the target check fails. Otherwise the tokens are processed in order, and the reported total is the sum of what each token sent, bounded by their balances |
| Digits.LeadingDigitsStop | index.js:151-152 | The digit match of a name starting with a digit run ends where the run ends, at the first non-digit |
| Digits.FirstRun | index.js:151-152 | For any name with a digit, the number read is the value of its first maximal digit run, whatever text follows the run |
| Digits.NumberRoundTrip | index.js:151-153 | The first number in a digit-free prefix followed by a rendered number is that number |
| Text.Split | index.js:748 | `split` gives at least one part, no part contains the separator, and joining the parts with it gives the input back |
| Text.SplitJoin | index.js:748 | Splitting parts joined by a separator they do not contain gives the parts back |
| Text.Trim | index.js:749 | `trim` removes exactly the leading and trailing ECMAScript whitespace |
| Text.TrimIdempotent | tf.js:23 | Trimming twice is trimming once |
| Clock.Pad2 | index.js:195-197 | `padStart(2, "0")` gives at least two digits that read back as the number |
| Clock.LabelFields | index.js:195-197 | A label splits at its colons into three padded fields that read back as hours, minutes and seconds |
| Clock.FormatTime | index.js:191-198 | Computes the label. It carries no contract of its own; `Clock.FormatTimeFields` and `Clock.FormatTimeExample` state what it produces |
| Clock.FormatTimeFields | index.js:191-198 | For a non-negative input, the three fields `h`, `m`, `s` satisfy `h*3600 + m*60 + s` equals the input, with `m` and `s` below 60, each field at least two digits |
| Clock.FormatTimeExample | index.js:191-198 | 3725 seconds is `01:02:05` |
| StatusBoard.Upsert | index.js:135 | `Map.set`: an account already on the board keeps its place and gets the new line. A new account is appended |
| StatusBoard.UpsertUnique | index.js:135 | An upsert leaves exactly one entry per account |
| StatusBoard.UpsertLookup | index.js:135 | After an upsert the account reads back the latest line, and every other account is unchanged |
| StatusBoard.Key | index.js:151-153 | The comparator's number `parseInt(name.match(/\d+/)[0])`. It carries no contract of its own; `StatusBoard.FirstRunKey` states what it reads for any name with a digit, and `StatusBoard.NumberedKey` and `Credentials.WalletNameNumber` for the account names |
| StatusBoard.FirstRunKey | index.js:151-153 | The sort key of any name with a digit is the value of its first digit run, whatever follows it |
| StatusBoard.NumberedKey | index.js:151-153 | The key of a name made of a digit-free prefix and a rendered number is that number, and such a name has a digit |
| StatusBoard.InsertShape | index.js:147-155 | One insertion step of the sort adds exactly the inserted entry |
| StatusBoard.InsertSorted | index.js:147-155 | One insertion step into a sorted list keeps it sorted |
| StatusBoard.SortBy | index.js:147-154 | The comparator sort as insertion in board order. It carries no contract of its own; `StatusBoard.SortSorted` and `StatusBoard.SortStable` state its order and stability |
| StatusBoard.SortSorted | index.js:147-155 | The redraw order is ascending by account number, and it is a permutation of the board |
| StatusBoard.SortStable | index.js:171-176 | Entries with equal account numbers keep board order |
| StatusBoard.Render | index.js:147-155 | The redraw fails iff there are two or more entries and some account name has no digit, because `match` returns null. Otherwise it is the board sorted by account number, as a permutation |
| StatusBoard.Screen | index.js:156-158 | The printed lines are the optional headline, then the message of each entry in the given order |
| StatusBoard.Draw | index.js:167-180 | A redraw fails exactly when the sort does. Otherwise it prints the optional headline and then the messages of the board's entries in ascending account-number order, one line each |
| StatusBoard.Log | index.js:129-183 | An in-place message replaces the account's line, prefixed `[account] `, and redraws only when the throttle is due; that redraw prints the updated board's messages in account-number order. Any other message leaves the board alone and is printed, prefixed, above the board's messages in account-number order |
| StatusBoard.RenderExample | index.js:147-156 | Names numbered 2, 10 and 1 are listed 1, 2, 10 |
| Session.Seconds | index.js:595-598 | The number of turns of the countdown loop, `duration` when positive and 0 otherwise. It carries no contract of its own; `Session.WalkListening` states how it feeds the listening time |
| Session.Duration | index.js:565 | `musicDetails.duration \|\| song.duration \|\| 180`: the first truthy candidate, and never 0 |
| Session.Walk | index.js:558-645 | The song loop. It carries no contract of its own; `Session.WalkPlayed`, `Session.WalkRefusedBefore`, `Session.WalkCounts`, `Session.WalkListening` and `Session.WalkMarks` state what it does to the state |
| Session.WalkCounts | index.js:558-562 | The song loop keeps the token. The played set only grows, and only by ids of songs at or after the starting position. The count grows by exactly the number of new ids |
| Session.WalkPlayed | index.js:558-562 | The loop marks exactly the ids of the songs it looks at: those from the starting position up to and including the song listened to, or to the end of the list when no play is accepted |
| Session.WalkRefusedBefore | index.js:592-645 | The loop stops at the first new song whose play is accepted: every song before it that was new when reached had its play refused (every new song, when none is accepted) |
| Session.WalkStopsAtFirst | index.js:592-645 | Of two new songs whose plays would both be accepted, only the first is marked, counted and listened to |
| Session.WalkListening | index.js:592-641 | Listening time grows only by the full length of the one accepted song, which was new to the day. Without an accepted play it does not grow |
| Session.WalkMarks | index.js:558-562 | Every song the loop passes is marked played: every song up to the one listened to, or every song when no play is accepted |
| Session.PlaySession | index.js:542-653 | At or past the limit it returns false and changes nothing. With no songs it returns true and changes nothing. Otherwise it runs the song loop. The token is kept, played ids only grow, and the count grows by the number of new ids |
| Session.CountCanPassLimit | index.js:544-562 | The limit is checked only at session start: at 49 plays, two new refused songs end at 51 |
| Session.Refresh | index.js:656-676 | The token is replaced only with a private key and a truthy new token |
| Session.DailyTurn | index.js:679-711 | When a session reports the day over, the count, the played set and the listening time are reset and the token refreshed. Otherwise the state is the song loop's |
| Credentials.KeptLines | index.js:747-750 | `map(trim).filter(...)`. It carries no contract of its own; `Credentials.KeptLinesMeaning` and `Credentials.KeptLinesAppend` state which lines it keeps and in what order |
| Credentials.KeptLinesMeaning | index.js:747-750 | Every kept line is the trimmed form of an input line, non-empty and not a comment. Every input line whose trimmed form qualifies is kept |
| Credentials.KeptLinesAppend | index.js:747-750 | The filter keeps the order and the repeats of the lines: filtering two runs of lines in sequence is filtering each and concatenating, and one line is kept iff its trimmed form is non-empty and not a comment |
| Credentials.KeyLines | index.js:747-750 | `split("\n")`, `trim` and the filter. It carries no contract of its own; `Credentials.KeyLinesTrimmed` states what every key line is |
| Credentials.KeyLinesTrimmed | index.js:747-750 | Every key tried is trimmed, non-empty and not a comment |
| Credentials.WalletName | index.js:758 | The name `Wallet-n`. It carries no contract of its own; `Credentials.WalletNameNumber` and `Credentials.WalletNameInjective` state that it reads back as `n` and that names differ |
| Credentials.WalletNameNumber | index.js:758 | The first number in `Wallet-n` is `n`, so the board orders wallets by `n` |
| Credentials.WalletNameInjective | index.js:758 | Different numbers give different wallet names |
| Credentials.LoggedIn | index.js:752-768 | The `i`-th account logged in is named `Wallet-(i+1)`, and its key is one of the keys tried |
| Credentials.LoggedInFrom | index.js:752-760 | Account `i` holds the key of the `(i+1)`-th successful login and the token that login returned |
| Credentials.LoggedInCount | index.js:752-768 | There is one account per successful login, numbered without gaps |
| Credentials.WalletNamesDistinct | index.js:758 | The bot's account names are pairwise different |
| Credentials.WalletBoardRenders | index.js:147-156 | A board of wallet names always redraws, ordered by wallet number |
| Credentials.ReadWallets | index.js:744-772 | Keys are tried in file order, and the successful ones are named consecutively. Account `i` holds the key and the token of the `(i+1)`-th successful login. The result is a failure iff no key logged in |

## Left out

- HTTP calls are oracle inputs rather than modelled. This covers axios profile, tasks, recommendations, like, comment, history, heartbeat, play, follow and send. A thrown request is a refusal or a missing value.
- The Telegram notification and the ethers wallet login and message signing are foreign libraries and network. A login is an oracle.
- Worker threads, their supervision and `AsyncLock` are left out, because they are concurrency. `globalState` is per thread, so each board holds only its own account.
- Console clearing and printing, and the log text, are left out. A redraw is modelled as the list of lines it prints.
- `setTimeout` pacing, the per-second countdowns and the 24-hour wait are left out. The `Date.now()` throttle of the in-place redraw is the `due` argument of `StatusBoard.Log`.
- The file reads (`pk.txt` and every `.txt` file) are left out. So are the JWT regex scan, `process.exit` and the command-line target id. The model starts from the file content, or from the list of regex matches.
- Retry.ShrinkTenth: `Math.floor(x * 0.9)` is the exact integer `floor(9x / 10)`. For the integer scores involved (below about 10^14), the double product never lands close enough to an integer to floor differently.
- Clock.FormatTimeFields: stated for non-negative integer seconds only. Negative or fractional durations from the API are not modelled.
- The score and level that `getUserInfo` reads from `getMyInfo`, and the balance `getMyBalance` returns in `tf.js`, are JavaScript numbers (doubles); they are modelled as unbounded integers, so fractional values and values beyond 2^53 are not modelled.
- `parseInt` on very long digit runs, which loses precision as a double, is modelled as an exact natural number.
- `playSession` after an accepted play is left out: the end event, `getUserInfo`, the nested `sendPoints` and `getDailyTasks`. The song loop is modelled up to and including the listening time. `Transfer.SendPoints` models the transfer itself.
- Session.PlaySession: the outer `catch` that turns a thrown error into "continue" is not modelled, because every remote call in the loop is an oracle that does not throw.
- Session.CountCanPassLimit records that the daily count can exceed 50 within one day. This follows the code: the limit is checked only when a session starts.
- `totalSent` and the before/after stats of `sendPoints` are only logged, so they are not modelled. `processToken`'s second balance read is only logged too.

=== FILE: clock.dfy ===
/** index.js `formatTime`: a number of seconds as an `HH:MM:SS` countdown label. */
module Clock {
  import opened Digits
  import opened Text

  /** `n.toString().padStart(2, "0")`: at least two digits, a zero in front of a single digit. */
  function Pad2(n: nat): (s: string)
    ensures |s| >= 2 && AllDigits(s) && Value(s) == n
    ensures n >= 10 ==> s == NatToString(n)
  {
    var t := NatToString(n);
    if |t| < 2 then
      LeadingZero(t);
      "0" + t
    else t
  }

  /** Three numbers, each padded, joined by colons. */
  function Label(hours: nat, minutes: nat, secs: nat): string {
    Pad2(hours) + ":" + Pad2(minutes) + ":" + Pad2(secs)
  }

  /** The label: hours (not wrapped at 24), minutes and seconds. */
  function FormatTime(seconds: nat): string {
    Label(seconds / 3600, seconds % 3600 / 60, seconds % 60)
  }

  /** Hours, minutes and seconds recombine to the input, with minutes and seconds below 60. */
  lemma ClockArithmetic(seconds: nat)
    ensures (seconds / 3600) * 3600 + (seconds % 3600 / 60) * 60 + seconds % 60 == seconds
    ensures seconds % 3600 / 60 < 60 && seconds % 60 < 60
  {
    var r := seconds % 3600;
    assert (seconds / 3600) * 3600 + r == seconds;
    assert (r / 60) * 60 + r % 60 == r;
    assert r % 60 == seconds % 60 by {
      assert seconds == (seconds / 3600 * 60) * 60 + r;
    }
  }

  /** Three colon-free fields joined by colons split back into those fields. */
  lemma SplitThree(a: string, b: string, c: string)
    requires ':' !in a && ':' !in b && ':' !in c
    ensures Split(a + ":" + b + ":" + c, ':') == [a, b, c]
  {
    var parts := [a, b, c];
    assert parts[1..] == [b, c] && [b, c][1..] == [c];
    assert Join([b, c], ':') == b + ":" + c;
    assert Join(parts, ':') == a + ":" + b + ":" + c;
    SplitJoin(parts, ':');
  }

  /** Three fields of at least two digits, joined by colons, split back into those fields. */
  lemma DigitFields(a: string, b: string, c: string)
    requires |a| >= 2 && AllDigits(a) && |b| >= 2 && AllDigits(b) && |c| >= 2 && AllDigits(c)
    ensures var f := Split(a + ":" + b + ":" + c, ':');
      && |f| == 3 && f[0] == a && f[1] == b && f[2] == c
      && (forall i :: 0 <= i < 3 ==> |f[i]| >= 2 && AllDigits(f[i]))
  {
    assert ':' !in a && ':' !in b && ':' !in c by {
      assert !IsDigit(':');
    }
    SplitThree(a, b, c);
  }

  /** A label splits back at its colons into three fields of at least two digits each, which
      read back as the three numbers. */
  lemma LabelFields(hours: nat, minutes: nat, secs: nat)
    ensures var f := Split(Label(hours, minutes, secs), ':');
      && |f| == 3
      && (forall i :: 0 <= i < 3 ==> |f[i]| >= 2 && AllDigits(f[i]))
      && Value(f[0]) == hours && Value(f[1]) == minutes && Value(f[2]) == secs
  {
    DigitFields(Pad2(hours), Pad2(minutes), Pad2(secs));
  }

  /** Splitting the label at its colons gives three zero-padded fields that read back as hours,
      minutes below 60 and seconds below 60 which add up to the input. */
  lemma FormatTimeFields(seconds: nat)
    ensures var f := Split(FormatTime(seconds), ':');
      && |f| == 3
      && (forall i :: 0 <= i < 3 ==> |f[i]| >= 2 && AllDigits(f[i]))
      && Value(f[0]) * 3600 + Value(f[1]) * 60 + Value(f[2]) == seconds
      && Value(f[1]) < 60 && Value(f[2]) < 60
  {
    LabelFields(seconds / 3600, seconds % 3600 / 60, seconds % 60);
    ClockArithmetic(seconds);
  }

  /** A single digit is padded with one zero. */
  lemma Pad2Digit(d: nat)
    requires d < 10
    ensures Pad2(d) == ['0', DigitChar(d)]
  {
  }

  /** One hour, two minutes and five seconds. */
  lemma FormatTimeExample()
    ensures FormatTime(3725) == "01:02:05"
  {
    assert 3725 / 3600 == 1 && 3725 % 3600 / 60 == 2 && 3725 % 60 == 5;
    Pad2Digit(1);
    Pad2Digit(2);
    Pad2Digit(5);
  }
}

=== FILE: credentials.dfy ===
/** index.js `readTokens`: read the private-key file, keep the meaningful lines, log in with
    each key and name the accounts that logged in `Wallet-1`, `Wallet-2`, ... in order. */
module Credentials {
  import opened Wrappers
  import opened Digits
  import opened Text
  import StatusBoard

  /** One logged-in account: its board name, its session token and the key it came from. */
  datatype Account = Account(name: string, token: string, privateKey: string)

  /** Why start-up stops: no key logged in. */
  datatype LoadError = NoValidTokens

  /** A trimmed line is a key unless it is empty or a `#` comment. */
  predicate Kept(line: string) {
    |line| > 0 && line[0] != '#'
  }

  /** `parts.map(trim).filter(...)`: the cleaned lines among `parts` that are kept, in order.
      The source always cleans with `trim` (see `KeyLines`, the only caller); the cleaning step is
      a parameter only so that the lemmas below reason about it without unfolding `Trim`. */
  function KeptLines(parts: seq<string>, clean: string -> string): seq<string> {
    if |parts| == 0 then []
    else
      var line := clean(parts[|parts| - 1]);
      KeptLines(parts[..|parts| - 1], clean) + (if Kept(line) then [line] else [])
  }

  /** The filter drops nothing it should keep and keeps nothing it should drop: every output line
      is the trimmed form of an input line and passes the filter, and every input line whose
      trimmed form passes the filter is in the output. */
  lemma {:induction false} KeptLinesMeaning(parts: seq<string>, clean: string -> string)
    ensures |KeptLines(parts, clean)| <= |parts|
    ensures forall k :: 0 <= k < |KeptLines(parts, clean)| ==>
      Kept(KeptLines(parts, clean)[k]) && exists i :: 0 <= i < |parts| && clean(parts[i]) == KeptLines(parts, clean)[k]
    ensures forall i :: 0 <= i < |parts| && Kept(clean(parts[i])) ==> clean(parts[i]) in KeptLines(parts, clean)
  {
    if |parts| > 0 {
      var front := parts[..|parts| - 1];
      KeptLinesMeaning(front, clean);
      var r := KeptLines(parts, clean);
      assert r[..|KeptLines(front, clean)|] == KeptLines(front, clean);
      forall k | 0 <= k < |r|
        ensures Kept(r[k]) && exists i :: 0 <= i < |parts| && clean(parts[i]) == r[k]
      {
        if k < |KeptLines(front, clean)| {
          assert r[k] == KeptLines(front, clean)[k];
          var i :| 0 <= i < |front| && clean(front[i]) == r[k];
          assert parts[i] == front[i];
        } else {
          assert clean(parts[|parts| - 1]) == r[k];
        }
      }
      forall i | 0 <= i < |parts| && Kept(clean(parts[i]))
        ensures clean(parts[i]) in r
      {
        if i < |front| {
          assert front[i] == parts[i];
        }
      }
    }
  }

  /** The filter keeps order and repeats: filtering two runs of lines one after the other is
      filtering each run and concatenating the results, and a single line is kept exactly when
      its trimmed form passes the filter. */
  lemma {:induction false} KeptLinesAppend(a: seq<string>, b: seq<string>, clean: string -> string)
    ensures KeptLines(a + b, clean) == KeptLines(a, clean) + KeptLines(b, clean)
    ensures |b| == 1 ==> KeptLines(b, clean) == if Kept(clean(b[0])) then [clean(b[0])] else []
    decreases |b|
  {
    if |b| > 0 {
      var front, last := b[..|b| - 1], b[|b| - 1];
      var tail := if Kept(clean(last)) then [clean(last)] else [];
      assert (a + b)[..|a + b| - 1] == a + front;
      assert (a + b)[|a + b| - 1] == last;
      assert KeptLines(a + b, clean) == KeptLines(a + front, clean) + tail;
      KeptLinesAppend(a, front, clean);
      assert KeptLines(b, clean) == KeptLines(front, clean) + tail;
      if |b| == 1 {
        assert front == [];
      }
    } else {
      assert a + b == a;
    }
  }

  /** The lines of the key file that are tried as keys. */
  function KeyLines(content: string): seq<string> {
    KeptLines(Split(content, '\n'), Trim)
  }

  /** Every tried key is already trimmed, non-empty and not a comment. */
  lemma KeyLinesTrimmed(content: string)
    ensures forall k :: 0 <= k < |KeyLines(content)| ==>
      var x := KeyLines(content)[k]; Kept(x) && Trim(x) == x
  {
    var parts := Split(content, '\n');
    KeptLinesMeaning(parts, Trim);
    forall k | 0 <= k < |KeyLines(content)|
      ensures Trim(KeyLines(content)[k]) == KeyLines(content)[k]
    {
      var i :| 0 <= i < |parts| && Trim(parts[i]) == KeyLines(content)[k];
      TrimIdempotent(parts[i]);
    }
  }

  /** The board name of the `n`-th account that logged in. */
  function WalletName(n: nat): string {
    "Wallet-" + NatToString(n)
  }

  /** The status board orders a wallet by its number. */
  lemma WalletNameNumber(n: nat)
    ensures FirstNumber(WalletName(n)) == Some(n)
    ensures !NoDigits(WalletName(n))
  {
    assert NoDigits("Wallet-");
    NumberRoundTrip("Wallet-", n);
  }

  /** Different numbers give different names. */
  lemma WalletNameInjective(m: nat, n: nat)
    requires m != n
    ensures WalletName(m) != WalletName(n)
  {
    WalletNameNumber(m);
    WalletNameNumber(n);
  }

  /** Accounts from the first `n` keys; `logins[i]` is the token the login for key `i` yields, or
      `None` when it throws (a missing entry is a failed login). */
  function LoggedIn(keys: seq<string>, logins: seq<Option<string>>, n: nat): (r: seq<Account>)
    requires n <= |keys|
    ensures |r| <= n
    ensures forall i :: 0 <= i < |r| ==> r[i].name == WalletName(i + 1)
    ensures forall i :: 0 <= i < |r| ==> r[i].privateKey in keys[..n]
  {
    if n == 0 then []
    else
      var front := LoggedIn(keys, logins, n - 1);
      assert forall i :: 0 <= i < n - 1 ==> keys[..n - 1][i] == keys[..n][i];
      var login := At(logins, n - 1, None);
      if login.Some? then front + [Account(WalletName(|front| + 1), login.value, keys[n - 1])]
      else front
  }

  /** Number of successful logins among the first `n` keys. */
  function Successes(logins: seq<Option<string>>, n: nat): nat {
    if n == 0 then 0 else Successes(logins, n - 1) + (if n - 1 < |logins| && logins[n - 1].Some? then 1 else 0)
  }

  /** One account per successful login, numbered without gaps. */
  lemma {:induction false} LoggedInCount(keys: seq<string>, logins: seq<Option<string>>, n: nat)
    requires n <= |keys|
    ensures |LoggedIn(keys, logins, n)| == Successes(logins, n)
  {
    if n > 0 {
      LoggedInCount(keys, logins, n - 1);
    }
  }

  /** Account `a` comes from the `(i+1)`-th successful login among the first `n` keys: it holds
      that login's key and the token it returned. */
  predicate FromLogin(keys: seq<string>, logins: seq<Option<string>>, n: nat, a: Account, i: nat) {
    exists k :: 0 <= k < n && k < |keys| && k < |logins|
      && Successes(logins, k) == i && a.privateKey == keys[k] && logins[k] == Some(a.token)
  }

  /** A login among the first `m` keys is a login among the first `n >= m` keys. */
  lemma FromLoginWiden(keys: seq<string>, logins: seq<Option<string>>, m: nat, n: nat, a: Account, i: nat)
    requires m <= n && FromLogin(keys, logins, m, a, i)
    ensures FromLogin(keys, logins, n, a, i)
  {
    var k :| 0 <= k < m && k < |keys| && k < |logins|
      && Successes(logins, k) == i && a.privateKey == keys[k] && logins[k] == Some(a.token);
    assert k < n;
  }

  /** The account a successful login at key `n - 1` adds comes from that login. */
  lemma FromLoginNew(keys: seq<string>, logins: seq<Option<string>>, n: nat)
    requires 0 < n <= |keys| && n - 1 < |logins| && logins[n - 1].Some?
    ensures FromLogin(keys, logins, n,
      Account(WalletName(Successes(logins, n - 1) + 1), logins[n - 1].value, keys[n - 1]), Successes(logins, n - 1))
  {
    var k := n - 1;
    assert k < n && k < |keys| && k < |logins| && Successes(logins, k) == Successes(logins, n - 1);
  }

  /** Account `i` of the first `n` keys comes from the `(i+1)`-th successful login. */
  lemma {:induction false} FromLoginAt(keys: seq<string>, logins: seq<Option<string>>, n: nat, i: nat)
    requires n <= |keys| && i < |LoggedIn(keys, logins, n)|
    ensures FromLogin(keys, logins, n, LoggedIn(keys, logins, n)[i], i)
  {
    var front := LoggedIn(keys, logins, n - 1);
    if i < |front| {
      FromLoginAt(keys, logins, n - 1, i);
      FromLoginWiden(keys, logins, n - 1, n, front[i], i);
      assert LoggedIn(keys, logins, n)[i] == front[i];
    } else {
      LoggedInCount(keys, logins, n - 1);
      FromLoginNew(keys, logins, n);
    }
  }

  /** Account `i` carries the key and the token of the `(i+1)`-th successful login. */
  lemma LoggedInFrom(keys: seq<string>, logins: seq<Option<string>>, n: nat)
    requires n <= |keys|
    ensures forall i :: 0 <= i < |LoggedIn(keys, logins, n)| ==>
      FromLogin(keys, logins, n, LoggedIn(keys, logins, n)[i], i)
  {
    forall i | 0 <= i < |LoggedIn(keys, logins, n)|
      ensures FromLogin(keys, logins, n, LoggedIn(keys, logins, n)[i], i)
    {
      FromLoginAt(keys, logins, n, i);
    }
  }

  /** The bot's board names are pairwise different, so the board never merges two accounts. */
  lemma WalletNamesDistinct(accounts: seq<Account>)
    requires forall i :: 0 <= i < |accounts| ==> accounts[i].name == WalletName(i + 1)
    ensures forall i, j :: 0 <= i < j < |accounts| ==> accounts[i].name != accounts[j].name
  {
    forall i, j | 0 <= i < j < |accounts|
      ensures accounts[i].name != accounts[j].name
    {
      WalletNameInjective(i + 1, j + 1);
    }
  }

  /** A board holding only wallet names always redraws, in ascending wallet number. */
  lemma WalletBoardRenders(b: seq<StatusBoard.Entry>, numbers: seq<nat>)
    requires |numbers| == |b|
    requires forall i :: 0 <= i < |b| ==> b[i].account == WalletName(numbers[i])
    ensures StatusBoard.Render(b).Success?
    ensures forall i :: 0 <= i < |b| ==> StatusBoard.Key(b[i]) == numbers[i]
  {
    forall i | 0 <= i < |b|
      ensures !NoDigits(b[i].account) && StatusBoard.Key(b[i]) == numbers[i]
    {
      WalletNameNumber(numbers[i]);
    }
  }

  /** index.js `readTokens` after the file read: log in with every kept line in order and name the
      accounts that logged in; stop when none did. */
  method ReadWallets(content: string, logins: seq<Option<string>>) returns (r: Result<seq<Account>, LoadError>)
    ensures var keys := KeyLines(content);
      && (r.Failure? <==> Successes(logins, |keys|) == 0)
      && (r.Success? ==> r.value == LoggedIn(keys, logins, |keys|) && |r.value| == Successes(logins, |keys|))
      && (r.Success? ==> forall i :: 0 <= i < |r.value| ==> FromLogin(keys, logins, |keys|, r.value[i], i))
  {
    var keys := KeyLines(content);
    var accounts: seq<Account> := [];
    var i := 0;
    while i < |keys|
      invariant 0 <= i <= |keys|
      invariant accounts == LoggedIn(keys, logins, i)
    {
      var login := At(logins, i, None);
      if login.Some? {
        accounts := accounts + [Account(WalletName(|accounts| + 1), login.value, keys[i])];
      }
      i := i + 1;
    }
    LoggedInCount(keys, logins, |keys|);
    LoggedInFrom(keys, logins, |keys|);
    if |accounts| == 0 {
      return Failure(NoValidTokens);
    }
    return Success(accounts);
  }
}

=== FILE: digits.dfy ===
/** Decimal digit strings: rendering a number, reading one back, and the
    "first run of digits" that orders account names on the status board. */
module Digits {
  import opened Wrappers

  predicate IsDigit(c: char) {
    '0' <= c <= '9'
  }

  predicate AllDigits(s: string) {
    forall i :: 0 <= i < |s| ==> IsDigit(s[i])
  }

  predicate NoDigits(s: string) {
    forall i :: 0 <= i < |s| ==> !IsDigit(s[i])
  }

  function DigitValue(c: char): nat
    requires IsDigit(c)
  {
    c as int - '0' as int
  }

  function DigitChar(d: nat): (c: char)
    requires d < 10
    ensures IsDigit(c) && DigitValue(c) == d
  {
    ('0' as int + d) as char
  }

  /** The number a string of decimal digits denotes (leading zeros allowed, as `parseInt` does). */
  function Value(s: string): nat
    requires AllDigits(s)
    decreases |s|
  {
    if |s| == 0 then 0 else Value(s[..|s| - 1]) * 10 + DigitValue(s[|s| - 1])
  }

  /** `n.toString()` for a non-negative integer. */
  function NatToString(n: nat): (s: string)
    ensures |s| >= 1 && AllDigits(s)
    ensures Value(s) == n
    ensures n >= 10 ==> |s| >= 2
    ensures |s| >= 2 ==> s[0] != '0'
  {
    if n < 10 then [DigitChar(n)]
    else
      var prefix := NatToString(n / 10);
      var s := prefix + [DigitChar(n % 10)];
      assert s[..|s| - 1] == prefix;
      s
  }

  /** A leading zero does not change the value of a digit string. */
  lemma {:induction false} LeadingZero(s: string)
    requires AllDigits(s)
    ensures AllDigits("0" + s) && Value("0" + s) == Value(s)
  {
    if |s| > 0 {
      var t := "0" + s;
      assert t[..|t| - 1] == "0" + s[..|s| - 1];
      LeadingZero(s[..|s| - 1]);
    }
  }

  /** The longest prefix of `s` made of digits. */
  function LeadingDigits(s: string): (d: string)
    ensures AllDigits(d) && d <= s
    ensures |d| < |s| ==> !IsDigit(s[|d|])
  {
    if |s| == 0 || !IsDigit(s[0]) then [] else [s[0]] + LeadingDigits(s[1..])
  }

  /** The value of the first maximal run of digits in `s` (what `parseInt(s.match(/\d+/)[0])`
      computes), or None when `s` holds no digit (where `match` yields null). */
  function FirstNumber(s: string): (r: Option<nat>)
    ensures r.None? <==> NoDigits(s)
  {
    if |s| == 0 then None
    else if IsDigit(s[0]) then Some(Value(LeadingDigits(s)))
    else FirstNumber(s[1..])
  }

  /** A digit-free prefix followed by a digit string: the number read is that digit string. */
  lemma {:induction false} FirstNumberAfterPrefix(prefix: string, digits: string)
    requires NoDigits(prefix) && AllDigits(digits) && |digits| >= 1
    ensures FirstNumber(prefix + digits) == Some(Value(digits))
  {
    if |prefix| == 0 {
      assert prefix + digits == digits;
      var d := LeadingDigits(digits);
      assert d == digits;
    } else {
      assert (prefix + digits)[1..] == prefix[1..] + digits;
      FirstNumberAfterPrefix(prefix[1..], digits);
    }
  }

  /** A digit run followed by text that does not start with a digit: the leading digits are the run. */
  lemma {:induction false} LeadingDigitsStop(digits: string, rest: string)
    requires AllDigits(digits)
    requires |rest| == 0 || !IsDigit(rest[0])
    ensures LeadingDigits(digits + rest) == digits
  {
    if |digits| == 0 {
      assert digits + rest == rest;
    } else {
      assert (digits + rest)[1..] == digits[1..] + rest;
      LeadingDigitsStop(digits[1..], rest);
      assert [digits[0]] + digits[1..] == digits;
    }
  }

  /** The first maximal digit run decides the number, whatever text follows it. */
  lemma {:induction false} FirstRun(prefix: string, digits: string, rest: string)
    requires NoDigits(prefix) && AllDigits(digits) && |digits| >= 1
    requires |rest| == 0 || !IsDigit(rest[0])
    ensures FirstNumber(prefix + digits + rest) == Some(Value(digits))
  {
    if |prefix| == 0 {
      assert prefix + digits + rest == digits + rest;
      LeadingDigitsStop(digits, rest);
    } else {
      assert (prefix + digits + rest)[1..] == prefix[1..] + digits + rest;
      FirstRun(prefix[1..], digits, rest);
    }
  }

  /** Reading back a rendered number after any digit-free prefix gives the number. */
  lemma NumberRoundTrip(prefix: string, n: nat)
    requires NoDigits(prefix)
    ensures FirstNumber(prefix + NatToString(n)) == Some(n)
  {
    FirstNumberAfterPrefix(prefix, NatToString(n));
  }
}

=== FILE: drain.dfy ===
/** tf.js: collect every distinct token, check the target account once, then drain each
    token's balance towards the target with the one-point-at-a-time retry loop. */
module Drain {
  import opened Wrappers
  import opened Fees
  import opened Retry
  import opened Text

  /** Why the run stops before touching any token (`process.exit(1)` in the script). */
  datatype Halt = NoTokens | UnknownTarget

  /** Position of the first occurrence of `x` in `xs`. */
  function FirstIndex<T(==)>(xs: seq<T>, x: T): (k: nat)
    requires x in xs
    ensures k < |xs| && xs[k] == x
    ensures forall j :: 0 <= j < k ==> xs[j] != x
  {
    if xs[0] == x then 0 else 1 + FirstIndex(xs[1..], x)
  }

  /** The distinct elements of `xs` in the order they are first seen: what inserting them one by
      one into a JavaScript `Set` and reading it back with `Array.from` yields. */
  function Dedup(xs: seq<string>): (r: seq<string>)
    ensures forall i, j :: 0 <= i < j < |r| ==> r[i] != r[j]
    ensures forall x :: x in r <==> x in xs
    decreases |xs|
  {
    if |xs| == 0 then []
    else
      var d := Dedup(xs[..|xs| - 1]);
      assert forall x :: x in xs <==> x in xs[..|xs| - 1] || x == xs[|xs| - 1] by {
        assert xs == xs[..|xs| - 1] + [xs[|xs| - 1]];
      }
      if xs[|xs| - 1] in d then d else d + [xs[|xs| - 1]]
  }

  /** The first occurrence of an element of a prefix lies inside that prefix. */
  lemma FirstIndexPrefix<T>(xs: seq<T>, n: nat, x: T)
    requires n <= |xs| && x in xs[..n]
    ensures x in xs && FirstIndex(xs[..n], x) == FirstIndex(xs, x)
  {
    var k := FirstIndex(xs[..n], x);
    assert xs[k] == x;
    var m := FirstIndex(xs, x);
    assert m <= k;
    assert xs[..n][m] == x;
  }

  /** An element met for the first time at the end of `xs` is first found there. */
  lemma FirstIndexLast(xs: seq<string>)
    requires |xs| > 0 && xs[|xs| - 1] !in xs[..|xs| - 1]
    ensures FirstIndex(xs, xs[|xs| - 1]) == |xs| - 1
  {
    forall j | 0 <= j < |xs| - 1
      ensures xs[j] != xs[|xs| - 1]
    {
      assert xs[j] == xs[..|xs| - 1][j];
    }
  }

  /** `Dedup` keeps first-seen order: an element listed earlier was met earlier in the input. */
  lemma {:induction false} DedupOrder(xs: seq<string>)
    ensures forall i, j :: 0 <= i < j < |Dedup(xs)| ==>
      FirstIndex(xs, Dedup(xs)[i]) < FirstIndex(xs, Dedup(xs)[j])
    decreases |xs|
  {
    if |xs| > 0 {
      var front := xs[..|xs| - 1];
      var last := xs[|xs| - 1];
      var d := Dedup(front);
      var r := Dedup(xs);
      DedupOrder(front);
      assert r == if last in d then d else d + [last];
      forall i, j | 0 <= i < j < |r|
        ensures FirstIndex(xs, r[i]) < FirstIndex(xs, r[j])
      {
        assert r[i] == d[i];
        FirstIndexPrefix(xs, |xs| - 1, d[i]);
        if j < |d| {
          assert r[j] == d[j];
          FirstIndexPrefix(xs, |xs| - 1, d[j]);
        } else {
          FirstIndexLast(xs);
        }
      }
    }
  }

  /** Extending the input by one element appends it to `Dedup` exactly when it is new. */
  lemma DedupStep(xs: seq<string>, i: nat)
    requires i < |xs|
    ensures Dedup(xs[..i + 1]) == if xs[i] in Dedup(xs[..i]) then Dedup(xs[..i]) else Dedup(xs[..i]) + [xs[i]]
  {
    assert xs[..i + 1][..i] == xs[..i];
  }

  /** Every match with its surrounding whitespace removed. */
  function TrimAll(matches: seq<string>): (r: seq<string>)
    ensures |r| == |matches|
    ensures forall i :: 0 <= i < |matches| ==> r[i] == Trim(matches[i])
  {
    seq(|matches|, i requires 0 <= i < |matches| => Trim(matches[i]))
  }

  /** Insert the strings one by one into a set and list them in insertion order, the way a
      JavaScript `Set` read back with `Array.from` does. */
  method InsertionOrder(xs: seq<string>) returns (tokens: seq<string>)
    ensures tokens == Dedup(xs)
  {
    var seen: set<string> := {};
    tokens := [];
    var i := 0;
    while i < |xs|
      invariant 0 <= i <= |xs|
      invariant tokens == Dedup(xs[..i])
      invariant forall x :: x in seen <==> x in tokens
    {
      DedupStep(xs, i);
      if xs[i] !in seen {
        seen := seen + {xs[i]};
        tokens := tokens + [xs[i]];
      }
      i := i + 1;
    }
    assert xs[..i] == xs;
  }

  /** tf.js `readTokens` after the file scan: collect the trimmed matches without repeats; no
      token at all stops the run. */
  method CollectTokens(matches: seq<string>) returns (r: Result<seq<string>, Halt>)
    ensures r.Failure? <==> |matches| == 0
    ensures r.Failure? ==> r.error == NoTokens
    ensures r.Success? ==> r.value == Dedup(TrimAll(matches)) && |r.value| >= 1
  {
    var tokens := InsertionOrder(TrimAll(matches));
    if |matches| > 0 {
      assert TrimAll(matches)[0] in tokens;
    }
    if |tokens| == 0 {
      return Failure(NoTokens);
    }
    return Success(tokens);
  }

  /** What one token contributes to `totalPointsSent`: the accepted amount of the decrementing
      retry loop started from the largest affordable amount, and nothing when the balance could
      not be read or nothing is affordable. */
  function Drained(balance: Option<int>, replies: seq<bool>): int {
    if balance.None? || MaxSendable(balance.value) <= 0 then 0
    else
      match Outcome(Decrement, MaxSendable(balance.value), replies)
      case Delivered(a) => a
      case Undelivered => 0
  }

  /** tf.js `processToken`: read the balance, try the largest affordable amount and step it down
      by one point after every refusal, for at most ten attempts. */
  method ProcessToken(total: int, balance: Option<int>, replies: seq<bool>)
    returns (tried: seq<int>, total': int)
    ensures balance.None? || MaxSendable(balance.value) <= 0 ==> tried == [] && total' == total
    ensures balance.Some? ==>
      && |tried| <= Decrement.attempts
      && tried <= Trail(Decrement, MaxSendable(balance.value), Decrement.attempts)
      && (forall i :: 0 <= i < |tried| ==> tried[i] == MaxSendable(balance.value) - i)
      && (forall i :: 0 <= i < |tried| - 1 ==> !Accepted(replies, i))
    ensures forall i :: 0 <= i < |tried| ==> tried[i] >= 1
    ensures |tried| > 0 && Accepted(replies, |tried| - 1) ==> total' == total + tried[|tried| - 1]
    ensures balance.Some? && MaxSendable(balance.value) > 0 && !(|tried| > 0 && Accepted(replies, |tried| - 1)) ==>
      tried == Trail(Decrement, MaxSendable(balance.value), Decrement.attempts)
    ensures total' == total + Drained(balance, replies)
    ensures total' != total ==>
      && balance.Some? && |tried| >= 1 && Accepted(replies, |tried| - 1)
      && total' - total == tried[|tried| - 1]
      && MaxSendable(balance.value) - 9 <= total' - total <= MaxSendable(balance.value)
      && total' - total >= 1
      && Affordable(total' - total, balance.value)
  {
    if balance.None? {
      return [], total;
    }
    var b := balance.value;
    var sendAmount := ComputeMaxSendAmount(b);
    if sendAmount <= 0 {
      return [], total;
    }
    var success;
    tried, success := RetryLoop(Decrement, sendAmount, replies);
    DecrementTried(b, tried);
    if success {
      total' := total + tried[|tried| - 1];
    } else {
      total' := total;
    }
  }

  /** The amounts `processToken` tries from balance `b`: the largest affordable amount, then one
      point less each time, all positive, at most ten of them, the last within 9 of the first
      and affordable. */
  lemma DecrementTried(b: int, tried: seq<int>)
    requires MaxSendable(b) >= 1 && tried <= Trail(Decrement, MaxSendable(b), Decrement.attempts)
    ensures |tried| <= Decrement.attempts
    ensures forall i :: 0 <= i < |tried| ==> tried[i] == MaxSendable(b) - i && tried[i] >= 1
    ensures |tried| > 0 ==>
      var a := tried[|tried| - 1];
      MaxSendable(b) - 9 <= a <= MaxSendable(b) && Affordable(a, b)
  {
    var start := MaxSendable(b);
    TrailLength(Decrement, start, Decrement.attempts);
    DecrementTrail(start, Decrement.attempts);
    PrefixPositive(Decrement, start, Decrement.attempts, tried);
    assert forall i :: 0 <= i < |tried| ==> tried[i] == Trail(Decrement, start, Decrement.attempts)[i];
    if |tried| > 0 {
      CostMonotone(tried[|tried| - 1], start);
    }
  }

  /** `totalPointsSent` after the first `n` tokens. */
  function DrainedUpTo(balances: seq<Option<int>>, replies: seq<seq<bool>>, n: nat): int {
    if n == 0 then 0 else DrainedUpTo(balances, replies, n - 1) + Drained(At(balances, n - 1, None), At(replies, n - 1, []))
  }

  /** The largest amount a single read balance can give up: the positive part of the balance. */
  function Available(balance: Option<int>): nat {
    if balance.Some? && balance.value > 0 then balance.value else 0
  }

  /** Sum of what the first `n` tokens hold. */
  function AvailableUpTo(balances: seq<Option<int>>, n: nat): nat {
    if n == 0 then 0 else AvailableUpTo(balances, n - 1) + Available(At(balances, n - 1, None))
  }

  /** A token never gives away more than it holds, nor a negative amount. */
  lemma DrainedBounds(balance: Option<int>, replies: seq<bool>)
    ensures 0 <= Drained(balance, replies) <= Available(balance)
  {
    if balance.Some? && MaxSendable(balance.value) > 0 {
      DecrementShrinks();
      OutcomeBounds(Decrement, MaxSendable(balance.value), replies);
    }
  }

  /** The whole run never sends more than the tokens held together. */
  lemma {:induction false} DrainedUpToBounds(balances: seq<Option<int>>, replies: seq<seq<bool>>, n: nat)
    ensures 0 <= DrainedUpTo(balances, replies, n) <= AvailableUpTo(balances, n)
  {
    if n > 0 {
      DrainedUpToBounds(balances, replies, n - 1);
      DrainedBounds(At(balances, n - 1, None), At(replies, n - 1, []));
    }
  }

  /** The token loop of `processAllTokens` over `n` tokens: process them in order and report
      `totalPointsSent`. */
  method DrainAll(balances: seq<Option<int>>, replies: seq<seq<bool>>, n: nat) returns (total: int)
    ensures total == DrainedUpTo(balances, replies, n)
    ensures 0 <= total <= AvailableUpTo(balances, n)
  {
    total := 0;
    var i := 0;
    while i < n
      invariant 0 <= i <= n
      invariant total == DrainedUpTo(balances, replies, i)
    {
      var tried;
      tried, total := ProcessToken(total, At(balances, i, None), At(replies, i, []));
      i := i + 1;
    }
    DrainedUpToBounds(balances, replies, n);
  }

  /** tf.js `processAllTokens`: stop without tokens or when the target account is unknown;
      otherwise process the tokens in order and report `totalPointsSent`. Balance reads and
      send replies are oracles indexed by token position; a missing entry is a failed call. */
  method ProcessAllTokens(matches: seq<string>, targetExists: bool,
                          balances: seq<Option<int>>, replies: seq<seq<bool>>)
    returns (r: Result<int, Halt>)
    ensures |matches| == 0 <==> r == Failure(NoTokens)
    ensures |matches| > 0 && !targetExists <==> r == Failure(UnknownTarget)
    ensures r.Success? ==>
      var n := |Dedup(TrimAll(matches))|;
      && r.value == DrainedUpTo(balances, replies, n)
      && 0 <= r.value <= AvailableUpTo(balances, n)
  {
    var collected := CollectTokens(matches);
    if collected.Failure? {
      return Failure(NoTokens);
    }
    if !targetExists {
      return Failure(UnknownTarget);
    }
    var total := DrainAll(balances, replies, |collected.value|);
    return Success(total);
  }
}

=== FILE: fees.dfy ===
/** The transfer fee and the search for the largest amount a balance can pay for
    (`calculateFee` and `computeMaxSendAmount`, written identically in both scripts). */
module Fees {

  /** `Math.floor(amount / 10)`: a 10% fee rounded down. Dafny's `/` by a positive divisor
      rounds toward negative infinity, which is exactly `Math.floor` on every integer. */
  function Fee(amount: int): (fee: int)
    ensures 10 * fee <= amount < 10 * fee + 10
    ensures amount >= 0 ==> 0 <= fee <= amount
  {
    amount / 10
  }

  /** Sending `amount` costs no more than `balance` once the fee is added. */
  predicate Affordable(amount: int, balance: int) {
    amount + Fee(amount) <= balance
  }

  /** The total deduction `amount + fee` grows with the amount (strictly). */
  lemma CostMonotone(a: int, b: int)
    requires a <= b
    ensures a + Fee(a) <= b + Fee(b)
    ensures a < b ==> a + Fee(a) < b + Fee(b)
  {
  }

  /** `balance - floor((balance + 1) / 11)` is the boundary between affordable and not. */
  lemma ClosedFormBoundary(balance: int)
    requires balance > 0
    ensures var r := balance - (balance + 1) / 11;
            0 < r <= balance && Affordable(r, balance) && !Affordable(r + 1, balance)
  {
  }

  /** Closed form of the largest affordable amount, and 0 for a non-positive balance.
      Independent of the search below. */
  function MaxSendable(balance: int): (r: int)
    ensures balance >= 0 ==> 0 <= r <= balance && Affordable(r, balance) && !Affordable(r + 1, balance)
    ensures r > 0 <==> balance > 0
  {
    if balance <= 0 then 0
    else
      ClosedFormBoundary(balance);
      balance - (balance + 1) / 11
  }

  /** An affordable amount whose successor is not is the greatest affordable amount. */
  lemma BoundaryIsGreatest(r: int, x: int, balance: int)
    requires Affordable(r, balance) && !Affordable(r + 1, balance)
    ensures Affordable(x, balance) <==> x <= r
  {
  }

  /** There is only one such boundary, so any two of them agree. */
  lemma BoundaryUnique(r: int, s: int, balance: int)
    requires Affordable(r, balance) && !Affordable(r + 1, balance)
    requires Affordable(s, balance) && !Affordable(s + 1, balance)
    ensures r == s
  {
    BoundaryIsGreatest(r, s, balance);
    BoundaryIsGreatest(s, r, balance);
  }

  /** `computeMaxSendAmount`: binary search over `[0, balance]` for the largest `mid` with
      `mid + floor(mid / 10) <= balance`; 0 when the balance is negative (the loop never runs). */
  method ComputeMaxSendAmount(balance: int) returns (result: int)
    ensures balance >= 0 ==> 0 <= result <= balance && Affordable(result, balance) && !Affordable(result + 1, balance)
    ensures balance < 0 ==> result == 0
    ensures result == MaxSendable(balance)
  {
    var low := 0;
    var high := balance;
    result := 0;
    while low <= high
      invariant 0 <= low
      invariant high <= balance
      invariant result == if low == 0 then 0 else low - 1
      invariant low > 0 ==> Affordable(low - 1, balance)
      invariant high < balance ==> !Affordable(high + 1, balance)
      invariant balance >= 0 ==> low <= high + 1
      decreases high - low + 1
    {
      var mid := (low + high) / 2;
      if mid + Fee(mid) <= balance {
        result := mid;
        low := mid + 1;
      } else {
        high := mid - 1;
      }
    }
    if balance >= 0 {
      assert low == high + 1;
      assert Affordable(0, balance);
      assert result == high;
      BoundaryUnique(result, MaxSendable(balance), balance);
    }
  }

  /** A balance of 1000 can send 909: 909 + 90 = 999 fits, 910 + 91 = 1001 does not. */
  lemma MaxSendableOf1000()
    ensures MaxSendable(1000) == 909
  {
  }
}

=== FILE: retry.dfy ===
/** The bounded retry loop that wraps every points transfer. Both scripts run the same loop
    shape: try the current amount; on success stop; otherwise shrink the amount and count the
    attempt; give up when the attempts are used up or the amount is no longer positive.
    They differ only in the shrink step and the attempt budget, captured by `Policy`. */
module Retry {
  import opened Fees

  /** A retry policy: how many attempts are allowed and how the amount shrinks after a
      refused attempt. */
  datatype Policy = Policy(attempts: nat, shrink: int -> int)

  /** index.js: `Math.floor(x * 0.9)`, read as the exact `floor(9x / 10)`; for the integer
      scores involved the double product does not round across an integer. */
  function ShrinkTenth(x: int): (y: int)
    ensures 10 * y <= 9 * x < 10 * y + 10
    ensures x >= 1 ==> 0 <= y < x
  {
    (9 * x) / 10
  }

  /** tf.js: one point less. */
  function ShrinkOne(x: int): (y: int)
    ensures x >= 1 ==> 0 <= y < x
  {
    x - 1
  }

  /** index.js `sendPoints`: at most 5 attempts per recipient, 10% less after each refusal. */
  const Decay := Policy(5, ShrinkTenth)

  /** tf.js `processToken`: at most 10 attempts, one point less after each refusal. */
  const Decrement := Policy(10, ShrinkOne)

  /** The shrink step takes a positive amount to a strictly smaller non-negative one. */
  ghost predicate Shrinks(p: Policy) {
    forall x :: x >= 1 ==> 0 <= p.shrink(x) < x
  }

  /** index.js's step shrinks every positive amount. */
  lemma DecayShrinks()
    ensures Shrinks(Decay)
  {
  }

  /** tf.js's step shrinks every positive amount. */
  lemma DecrementShrinks()
    ensures Shrinks(Decrement)
  {
  }

  /** The amounts tried, in order, when every attempt fails: at most `n` of them, stopping
      before the first amount that is not positive. */
  function Trail(p: Policy, x: int, n: nat): seq<int>
    decreases n
  {
    if n == 0 || x <= 0 then [] else [x] + Trail(p, p.shrink(x), n - 1)
  }

  /** The remote side's answer to attempt `i` (0-based); a missing answer or a thrown
      request counts as a refusal, as the scripts' `catch` blocks do. */
  predicate Accepted(replies: seq<bool>, i: nat) {
    i < |replies| && replies[i]
  }

  /** The index of the first accepted attempt among the first `n`, or `n` if none is. */
  function FirstAccepted(replies: seq<bool>, n: nat): (k: nat)
    ensures k <= n
    ensures forall j :: 0 <= j < k ==> !Accepted(replies, j)
    ensures k < n ==> Accepted(replies, k)
  {
    if n == 0 then 0
    else
      var k := FirstAccepted(replies, n - 1);
      if k < n - 1 then k
      else if Accepted(replies, n - 1) then n - 1
      else n
  }

  /** What one retry loop achieves for one recipient. */
  datatype Delivery = Delivered(amount: int) | Undelivered

  /** Reference outcome: the first amount of the all-failure trail whose attempt is accepted. */
  function Outcome(p: Policy, start: int, replies: seq<bool>): Delivery {
    var t := Trail(p, start, p.attempts);
    var k := FirstAccepted(replies, |t|);
    if k < |t| then Delivered(t[k]) else Undelivered
  }

  /** A trail never exceeds its attempt budget. */
  lemma {:induction false} TrailLength(p: Policy, x: int, n: nat)
    ensures |Trail(p, x, n)| <= n
    decreases n
  {
    if n > 0 && x > 0 {
      TrailLength(p, p.shrink(x), n - 1);
    }
  }

  /** Every amount on a trail is positive, and the first one is the starting amount. */
  lemma {:induction false} TrailPositive(p: Policy, x: int, n: nat)
    ensures
      && (forall i :: 0 <= i < |Trail(p, x, n)| ==> Trail(p, x, n)[i] >= 1)
      && (|Trail(p, x, n)| > 0 ==> Trail(p, x, n)[0] == x)
      && (x >= 1 && n >= 1 ==> |Trail(p, x, n)| >= 1)
    decreases n
  {
    if n > 0 && x > 0 {
      TrailPositive(p, p.shrink(x), n - 1);
    }
  }

  /** Along a trail each amount is the shrink of the one before it, strictly smaller, and no
      amount exceeds the start. */
  lemma {:induction false} TrailDecreasing(p: Policy, x: int, n: nat)
    requires Shrinks(p)
    ensures
      && (forall i :: 0 <= i < |Trail(p, x, n)| ==> Trail(p, x, n)[i] <= x)
      && (forall i :: 1 <= i < |Trail(p, x, n)| ==> Trail(p, x, n)[i] == p.shrink(Trail(p, x, n)[i - 1]) && Trail(p, x, n)[i] < Trail(p, x, n)[i - 1])
    decreases n
  {
    if n > 0 && x > 0 {
      var t := Trail(p, x, n);
      var rest := Trail(p, p.shrink(x), n - 1);
      TrailDecreasing(p, p.shrink(x), n - 1);
      TrailPositive(p, p.shrink(x), n - 1);
      assert t == [x] + rest;
      forall i | 1 <= i < |t|
        ensures t[i] == p.shrink(t[i - 1]) && t[i] < t[i - 1]
      {
        assert t[i] == rest[i - 1];
        if i > 1 {
          assert t[i - 1] == rest[i - 2];
        }
      }
    }
  }

  /** A trail shorter than its budget ended because the next amount was no longer positive. */
  lemma {:induction false} TrailStopsAtZero(p: Policy, x: int, n: nat)
    ensures
      |Trail(p, x, n)| < n ==> (|Trail(p, x, n)| == 0 && x <= 0) || (|Trail(p, x, n)| > 0 && p.shrink(Trail(p, x, n)[|Trail(p, x, n)| - 1]) <= 0)
    decreases n
  {
    if n > 0 && x > 0 {
      var t := Trail(p, x, n);
      var rest := Trail(p, p.shrink(x), n - 1);
      TrailStopsAtZero(p, p.shrink(x), n - 1);
      assert t == [x] + rest;
      if |rest| > 0 {
        assert t[|t| - 1] == rest[|rest| - 1];
      }
    }
  }

  /** Under tf.js's policy the `i`-th attempt sends exactly `x - i`. */
  lemma {:induction false} DecrementTrail(x: int, n: nat)
    ensures forall i :: 0 <= i < |Trail(Decrement, x, n)| ==> Trail(Decrement, x, n)[i] == x - i
    decreases n
  {
    if n > 0 && x > 0 {
      var t := Trail(Decrement, x, n);
      var rest := Trail(Decrement, x - 1, n - 1);
      assert Decrement.shrink(x) == x - 1;
      DecrementTrail(x - 1, n - 1);
      assert t == [x] + rest;
      forall i | 0 <= i < |t|
        ensures t[i] == x - i
      {
        if i > 0 {
          assert t[i] == rest[i - 1];
          assert rest[i - 1] == (x - 1) - (i - 1);
        }
      }
    }
  }

  /** An always-refused transfer of 909 under index.js's policy tries 909, 818, 736, 662, 595. */
  lemma DecayOf909()
    ensures Trail(Decay, 909, Decay.attempts) == [909, 818, 736, 662, 595]
  {
    assert Decay.shrink(909) == 818;
    assert Decay.shrink(818) == 736;
    assert Decay.shrink(736) == 662;
    assert Decay.shrink(662) == 595;
    assert Decay.shrink(595) == 535;
  }

  /** Every amount of a prefix of a trail is positive. */
  lemma PrefixPositive(p: Policy, x: int, n: nat, tried: seq<int>)
    requires tried <= Trail(p, x, n)
    ensures forall i :: 0 <= i < |tried| ==> tried[i] >= 1
  {
    TrailPositive(p, x, n);
    forall i | 0 <= i < |tried|
      ensures tried[i] >= 1
    {
      assert tried[i] == Trail(p, x, n)[i];
    }
  }

  /** Shrinking never makes an affordable amount unaffordable. */
  lemma TrailAffordable(p: Policy, x: int, n: nat, balance: int)
    requires Shrinks(p) && Affordable(x, balance)
    ensures forall a :: a in Trail(p, x, n) ==> Affordable(a, balance)
  {
    TrailDecreasing(p, x, n);
    var t := Trail(p, x, n);
    forall a | a in t
      ensures Affordable(a, balance)
    {
      var i :| 0 <= i < |t| && t[i] == a;
      CostMonotone(a, x);
    }
  }

  /** A delivered amount is one of the trail's amounts, hence positive and at most the start. */
  lemma OutcomeBounds(p: Policy, start: int, replies: seq<bool>)
    requires Shrinks(p)
    ensures Outcome(p, start, replies).Delivered? ==>
      var a := Outcome(p, start, replies).amount;
      a in Trail(p, start, p.attempts) && 1 <= a <= start
  {
    TrailPositive(p, start, p.attempts);
    TrailDecreasing(p, start, p.attempts);
  }

  /** One step along a trail that is the tail of `full` from position `k`. */
  lemma TrailStep(p: Policy, x: int, n: nat, full: seq<int>, k: nat)
    requires n > 0 && x > 0 && k <= |full| && Trail(p, x, n) == full[k..]
    ensures k < |full| && full[k] == x && full[k + 1..] == Trail(p, p.shrink(x), n - 1)
    ensures full[..k] + [x] == full[..k + 1]
  {
    assert full[k..] == [x] + Trail(p, p.shrink(x), n - 1);
  }

  /** The outcome is a delivery of the last tried amount when the attempts before it were
      all refused and it was accepted. */
  lemma OutcomeAccepted(p: Policy, start: int, replies: seq<bool>, tried: seq<int>)
    requires |tried| > 0 && tried <= Trail(p, start, p.attempts)
    requires forall i :: 0 <= i < |tried| - 1 ==> !Accepted(replies, i)
    requires Accepted(replies, |tried| - 1)
    ensures Outcome(p, start, replies) == Delivered(tried[|tried| - 1])
  {
    var t := Trail(p, start, p.attempts);
    var k := FirstAccepted(replies, |t|);
    assert k == |tried| - 1;
  }

  /** The outcome is no delivery when every attempt of the whole trail was refused. */
  lemma OutcomeRefused(p: Policy, start: int, replies: seq<bool>)
    requires forall i :: 0 <= i < |Trail(p, start, p.attempts)| ==> !Accepted(replies, i)
    ensures Outcome(p, start, replies) == Undelivered
  {
  }

  /** The retry loop of both scripts. `tried` lists the amounts sent, in order; `success`
      says whether the last of them was accepted. */
  method RetryLoop(p: Policy, start: int, replies: seq<bool>) returns (tried: seq<int>, success: bool)
    ensures |tried| <= p.attempts
    ensures tried <= Trail(p, start, p.attempts)
    ensures forall i :: 0 <= i < |tried| - 1 ==> !Accepted(replies, i)
    ensures success <==> |tried| > 0 && Accepted(replies, |tried| - 1)
    ensures !success ==> tried == Trail(p, start, p.attempts)
    ensures Outcome(p, start, replies) == if success then Delivered(tried[|tried| - 1]) else Undelivered
  {
    var budget := p.attempts;
    ghost var full := Trail(p, start, budget);
    TrailLength(p, start, budget);
    var amount := start;
    var attempt := 0;
    tried := [];
    success := false;
    while attempt < budget && amount > 0
      invariant attempt == |tried| <= |full| <= budget
      invariant tried == full[..attempt]
      invariant Trail(p, amount, budget - attempt) == full[attempt..]
      invariant forall i :: 0 <= i < attempt ==> !Accepted(replies, i)
      invariant !success
    {
      TrailStep(p, amount, budget - attempt, full, attempt);
      tried := tried + [amount];
      if Accepted(replies, attempt) {
        success := true;
        OutcomeAccepted(p, start, replies, tried);
        return;
      }
      amount := p.shrink(amount);
      attempt := attempt + 1;
    }
    assert tried == full;
    OutcomeRefused(p, start, replies);
  }
}

=== FILE: session.dfy ===
/** index.js `playSession` and `startDailyLoop`: the per-day bookkeeping of played songs, the
    daily play count and the listening time. Every remote call (recommendations, details,
    play start, token refresh) is an oracle input. */
module Session {
  import opened Wrappers

  /** `DAILY_LIMIT`. */
  const DailyLimit := 50

  /** Default length of a song whose duration is unknown, in seconds. */
  const DefaultDuration := 180

  /** The bot's session state: login token, ids played today, plays counted today and seconds
      listened today. */
  datatype State = State(token: string, played: set<int>, count: int, listening: int)

  /** A recommended song: its id and the duration listed with it (`song.duration`). */
  datatype Song = Song(id: int, listed: Option<int>)

  /** The remote side's answers for one song: the duration in its details (`None` when the
      details call failed or carried none) and whether the play event was accepted. */
  datatype Reply = Reply(detail: Option<int>, started: bool)

  /** JavaScript truthiness of a number that may be missing: 0 counts as missing. */
  predicate Truthy(x: Option<int>) {
    x.Some? && x.value != 0
  }

  /** `musicDetails.duration || song.duration || 180`: the first truthy candidate. */
  function Duration(detail: Option<int>, listed: Option<int>): (d: int)
    ensures d != 0
    ensures Truthy(detail) ==> d == detail.value
    ensures !Truthy(detail) && Truthy(listed) ==> d == listed.value
    ensures !Truthy(detail) && !Truthy(listed) ==> d == DefaultDuration
  {
    if Truthy(detail) then detail.value else if Truthy(listed) then listed.value else DefaultDuration
  }

  /** Seconds the countdown loop `for (timeLeft = duration; timeLeft > 0; timeLeft--)` runs. */
  function Seconds(duration: int): nat {
    if duration > 0 then duration else 0
  }

  /** The reply for song `i`, a failure when the oracle has none. */
  function ReplyFor(replies: seq<Reply>, i: int): Reply {
    At(replies, i, Reply(None, false))
  }

  /** The song loop from position `i`: skip ids already played; mark and count a new id before
      any remote call; stop at the first song whose play is accepted, after listening to all of
      it. Returns the new state and the position of the song listened to. */
  function Walk(st: State, songs: seq<Song>, replies: seq<Reply>, i: nat): (State, Option<nat>)
    decreases |songs| - i
  {
    if i >= |songs| then (st, None)
    else if songs[i].id in st.played then Walk(st, songs, replies, i + 1)
    else
      var marked := st.(played := st.played + {songs[i].id}, count := st.count + 1);
      var reply := ReplyFor(replies, i);
      if reply.started then
        (marked.(listening := marked.listening + Seconds(Duration(reply.detail, songs[i].listed))), Some(i))
      else Walk(marked, songs, replies, i + 1)
  }

  /** Counting one new id and then as many plays as further new ids counts every new id. */
  lemma MarkThenCount(played: set<int>, count: int, id: int, r: State)
    requires id !in played
    requires played + {id} <= r.played
    requires r.count - (count + 1) == |r.played - (played + {id})|
    ensures played <= r.played
    ensures r.count - count == |r.played - played|
    ensures r.played - played == (r.played - (played + {id})) + {id}
  {
    assert r.played - played == (r.played - (played + {id})) + {id};
    assert id !in r.played - (played + {id});
  }

  /** The song loop never changes the token; the played set only grows, and only by ids of songs
      at or after position `i` (`WalkPlayed` says exactly which); the count grows by exactly the
      number of new ids. */
  lemma {:induction false} WalkCounts(st: State, songs: seq<Song>, replies: seq<Reply>, i: nat)
    ensures var r := Walk(st, songs, replies, i).0;
      && r.token == st.token
      && st.played <= r.played
      && r.count - st.count == |r.played - st.played|
      && (forall x :: x in r.played - st.played ==> exists k :: i <= k < |songs| && songs[k].id == x)
    decreases |songs| - i
  {
    if i < |songs| {
      var id := songs[i].id;
      if id in st.played {
        WalkCounts(st, songs, replies, i + 1);
      } else if !ReplyFor(replies, i).started {
        var marked := st.(played := st.played + {id}, count := st.count + 1);
        assert Walk(st, songs, replies, i) == Walk(marked, songs, replies, i + 1);
        WalkCounts(marked, songs, replies, i + 1);
        MarkThenCount(st.played, st.count, id, Walk(marked, songs, replies, i + 1).0);
      } else {
        assert Walk(st, songs, replies, i).0.played - st.played == {id};
      }
    }
  }

  /** Listening time grows only by the full length of the one song whose play was accepted, a
      song new to the day at or after position `i`; without an accepted play it does not grow. */
  lemma {:induction false} WalkListening(st: State, songs: seq<Song>, replies: seq<Reply>, i: nat)
    ensures var (r, heard) := Walk(st, songs, replies, i);
      && (heard.None? ==> r.listening == st.listening)
      && (heard.Some? ==>
            && i <= heard.value < |songs|
            && songs[heard.value].id !in st.played
            && ReplyFor(replies, heard.value).started
            && r.listening == st.listening
                 + Seconds(Duration(ReplyFor(replies, heard.value).detail, songs[heard.value].listed)))
    decreases |songs| - i
  {
    if i < |songs| {
      var id := songs[i].id;
      if id in st.played {
        WalkListening(st, songs, replies, i + 1);
      } else if !ReplyFor(replies, i).started {
        var marked := st.(played := st.played + {id}, count := st.count + 1);
        assert Walk(st, songs, replies, i) == Walk(marked, songs, replies, i + 1);
        WalkListening(marked, songs, replies, i + 1);
      }
    }
  }

  /** Every song the loop passes ends up marked as played: every song up to the one listened to,
      or every song when none was accepted. */
  lemma {:induction false} WalkMarks(st: State, songs: seq<Song>, replies: seq<Reply>, i: nat)
    ensures var (r, heard) := Walk(st, songs, replies, i);
      var last := if heard.Some? then heard.value else |songs| - 1;
      forall k :: i <= k <= last && k < |songs| ==> songs[k].id in r.played
    decreases |songs| - i
  {
    if i < |songs| {
      var id := songs[i].id;
      if id in st.played {
        WalkMarks(st, songs, replies, i + 1);
        WalkCounts(st, songs, replies, i + 1);
      } else if !ReplyFor(replies, i).started {
        var marked := st.(played := st.played + {id}, count := st.count + 1);
        assert Walk(st, songs, replies, i) == Walk(marked, songs, replies, i + 1);
        WalkMarks(marked, songs, replies, i + 1);
        WalkCounts(marked, songs, replies, i + 1);
      }
    }
  }

  /** The ids of the songs at positions `lo` up to (not including) `hi`. */
  function Ids(songs: seq<Song>, lo: int, hi: int): set<int> {
    set k | lo <= k < hi && k < |songs| && 0 <= k :: songs[k].id
  }

  /** No position, no id. */
  lemma IdsEmpty(songs: seq<Song>, lo: int, hi: int)
    requires hi <= lo
    ensures Ids(songs, lo, hi) == {}
  {
  }

  /** The ids from `lo` are the id at `lo` and the ids from `lo + 1`. */
  lemma IdsSplit(songs: seq<Song>, lo: nat, hi: int)
    requires lo < hi && lo < |songs|
    ensures Ids(songs, lo, hi) == {songs[lo].id} + Ids(songs, lo + 1, hi)
  {
    forall x | x in Ids(songs, lo, hi)
      ensures x in {songs[lo].id} + Ids(songs, lo + 1, hi)
    {
      var k :| lo <= k < hi && k < |songs| && 0 <= k && songs[k].id == x;
      if k > lo {
        assert x in Ids(songs, lo + 1, hi);
      }
    }
    assert songs[lo].id in Ids(songs, lo, hi);
  }

  /** Where the song loop stops looking: just past the song listened to, or the end of the list. */
  function Stop(songs: seq<Song>, heard: Option<nat>): int {
    if heard.Some? then heard.value + 1 else |songs|
  }

  /** The songs before the one listened to, or all songs when no play is accepted. */
  function Upto(songs: seq<Song>, heard: Option<nat>): int {
    if heard.Some? then heard.value else |songs|
  }

  /** The loop marks exactly the ids of the songs it looks at: those from position `i` up to and
      including the song listened to, or up to the end of the list when no play is accepted. */
  lemma {:induction false} WalkPlayed(st: State, songs: seq<Song>, replies: seq<Reply>, i: nat)
    ensures var (r, heard) := Walk(st, songs, replies, i);
      r.played == st.played + Ids(songs, i, Stop(songs, heard))
    decreases |songs| - i
  {
    var (r, heard) := Walk(st, songs, replies, i);
    if i >= |songs| {
      IdsEmpty(songs, i, Stop(songs, heard));
    } else {
      var id := songs[i].id;
      if id in st.played {
        WalkPlayed(st, songs, replies, i + 1);
        WalkListening(st, songs, replies, i + 1);
        IdsSplit(songs, i, Stop(songs, heard));
      } else if !ReplyFor(replies, i).started {
        var marked := st.(played := st.played + {id}, count := st.count + 1);
        assert Walk(st, songs, replies, i) == Walk(marked, songs, replies, i + 1);
        WalkPlayed(marked, songs, replies, i + 1);
        WalkListening(marked, songs, replies, i + 1);
        IdsSplit(songs, i, Stop(songs, heard));
      } else {
        assert heard == Some(i);
        IdsSplit(songs, i, i + 1);
        IdsEmpty(songs, i + 1, i + 1);
      }
    }
  }

  /** The loop stops at the first new song whose play is accepted: every song before the one
      listened to (every song, when none is) that was new when reached had its play refused. */
  lemma {:induction false} WalkRefusedBefore(st: State, songs: seq<Song>, replies: seq<Reply>, i: nat)
    ensures var heard := Walk(st, songs, replies, i).1;
      forall k :: i <= k < Upto(songs, heard) && k < |songs| && songs[k].id !in st.played + Ids(songs, i, k) ==>
        !ReplyFor(replies, k).started
    decreases |songs| - i
  {
    var heard := Walk(st, songs, replies, i).1;
    var upto := Upto(songs, heard);
    if i < |songs| {
      var id := songs[i].id;
      if id in st.played {
        WalkRefusedBefore(st, songs, replies, i + 1);
        forall k | i <= k < upto && k < |songs| && songs[k].id !in st.played + Ids(songs, i, k)
          ensures !ReplyFor(replies, k).started
        {
          if k == i {
            IdsEmpty(songs, i, i);
          } else {
            IdsSplit(songs, i, k);
          }
        }
      } else if !ReplyFor(replies, i).started {
        var marked := st.(played := st.played + {id}, count := st.count + 1);
        assert Walk(st, songs, replies, i) == Walk(marked, songs, replies, i + 1);
        WalkRefusedBefore(marked, songs, replies, i + 1);
        forall k | i < k < upto && k < |songs| && songs[k].id !in st.played + Ids(songs, i, k)
          ensures !ReplyFor(replies, k).started
        {
          IdsSplit(songs, i, k);
          assert marked.played + Ids(songs, i + 1, k) == st.played + Ids(songs, i, k);
        }
      }
    }
  }

  /** Two new songs whose plays would both be accepted: only the first is marked, counted and
      listened to. */
  lemma WalkStopsAtFirst()
    ensures Walk(State("t", {}, 0, 0), [Song(1, Some(100)), Song(2, Some(200))],
                 [Reply(None, true), Reply(None, true)], 0)
         == (State("t", {1}, 1, 100), Some(0))
  {
    var st := State("t", {}, 0, 0);
    var songs := [Song(1, Some(100)), Song(2, Some(200))];
    var replies := [Reply(None, true), Reply(None, true)];
    assert 1 !in st.played;
    assert st.played + {1} == {1};
    assert Seconds(Duration(None, Some(100))) == 100;
    assert Walk(st, songs, replies, 0) == (State("t", {1}, 1, 0 + 100), Some(0));
  }

  /** index.js `playSession`. At or past the daily limit it stops the day without touching the
      state; with no recommendations it asks to be called again; otherwise it runs the song loop. */
  method PlaySession(st: State, songs: seq<Song>, replies: seq<Reply>)
    returns (cont: bool, st': State, heard: Option<nat>)
    ensures cont <==> st.count < DailyLimit
    ensures !cont ==> st' == st && heard.None?
    ensures cont && |songs| == 0 ==> st' == st && heard.None?
    ensures cont ==> (st', heard) == Walk(st, songs, replies, 0)
    ensures st'.token == st.token && st.played <= st'.played
    ensures st'.count - st.count == |st'.played - st.played|
  {
    WalkCounts(st, songs, replies, 0);
    if st.count >= DailyLimit {
      return false, st, None;
    }
    if |songs| == 0 {
      return true, st, None;
    }
    st' := st;
    heard := None;
    var i := 0;
    while i < |songs|
      invariant 0 <= i <= |songs|
      invariant Walk(st', songs, replies, i) == Walk(st, songs, replies, 0)
    {
      var song := songs[i];
      if song.id !in st'.played {
        st' := st'.(played := st'.played + {song.id}, count := st'.count + 1);
        var reply := ReplyFor(replies, i);
        if reply.started {
          st' := st'.(listening := st'.listening + Seconds(Duration(reply.detail, song.listed)));
          heard := Some(i);
          return true, st', heard;
        }
      }
      i := i + 1;
    }
    return true, st', None;
  }

  /** The limit is checked only when a session starts: a session that starts one below the limit
      and meets two new songs whose plays both fail ends two plays past it. */
  lemma CountCanPassLimit()
    ensures var st := State("", {}, DailyLimit - 1, 0);
      Walk(st, [Song(1, None), Song(2, None)], [], 0).0.count == DailyLimit + 1
  {
    var st := State("", {}, DailyLimit - 1, 0);
    var songs := [Song(1, None), Song(2, None)];
    var st1 := st.(played := st.played + {1}, count := st.count + 1);
    assert Walk(st, songs, [], 0) == Walk(st1, songs, [], 1);
    assert st1.played == {1};
    var st2 := st1.(played := st1.played + {2}, count := st1.count + 1);
    assert Walk(st1, songs, [], 1) == Walk(st2, songs, [], 2);
  }

  /** `refreshToken` as `startDailyLoop` uses it: with a private key and a non-empty new token
      from the login the token is replaced; otherwise the old token is kept. */
  function Refresh(token: string, hasKey: bool, login: Option<string>): (t: string)
    ensures t == token || (hasKey && login.Some? && login.value != "" && t == login.value)
    ensures hasKey && login.Some? && login.value != "" ==> t == login.value
  {
    if hasKey && login.Some? && login.value != "" then login.value else token
  }

  /** One turn of `startDailyLoop`: play a session; when it reports the day over, refresh the
      token and start a fresh day with nothing played, no plays counted and no listening time. */
  method DailyTurn(st: State, songs: seq<Song>, replies: seq<Reply>, hasKey: bool, login: Option<string>)
    returns (st': State)
    ensures st.count >= DailyLimit ==>
      st' == State(Refresh(st.token, hasKey, login), {}, 0, 0)
    ensures st.count < DailyLimit ==> st' == Walk(st, songs, replies, 0).0
  {
    var cont, after, heard := PlaySession(st, songs, replies);
    if !cont {
      var token := Refresh(after.token, hasKey, login);
      st' := State(token, {}, 0, 0);
    } else {
      st' := after;
    }
  }
}

=== FILE: status.dfy ===
/** index.js `log`: the in-place status board. Each account keeps one progress line in an
    insertion-ordered map, and a redraw lists the lines ordered by the first number in the
    account name. */
module StatusBoard {
  import opened Wrappers
  import opened Digits

  /** One board line and the account it belongs to. */
  datatype Entry = Entry(account: string, line: string)

  /** A JavaScript `Map` read in insertion order: at most one entry per account. */
  predicate UniqueAccounts(b: seq<Entry>) {
    forall i, j :: 0 <= i < j < |b| ==> b[i].account != b[j].account
  }

  /** Position of `account` on the board, or `|b|` when it has no entry. */
  function Position(b: seq<Entry>, account: string): (k: nat)
    ensures k <= |b|
    ensures forall i :: 0 <= i < k ==> b[i].account != account
    ensures k < |b| ==> b[k].account == account
  {
    if |b| == 0 || b[0].account == account then 0 else 1 + Position(b[1..], account)
  }

  /** `Position` is the only index with its two defining properties. */
  lemma {:induction false} PositionUnique(b: seq<Entry>, account: string, k: nat)
    requires k <= |b| && forall i :: 0 <= i < k ==> b[i].account != account
    requires k < |b| ==> b[k].account == account
    ensures Position(b, account) == k
  {
    if k > 0 {
      assert b[0].account != account;
      PositionUnique(b[1..], account, k - 1);
    }
  }

  /** `map.get(account)`. */
  function Lookup(b: seq<Entry>, account: string): Option<string> {
    var k := Position(b, account);
    if k < |b| then Some(b[k].line) else None
  }

  /** `map.set(account, line)`: an account already on the board keeps its place and gets the
      new line; a new account goes to the end. */
  function Upsert(b: seq<Entry>, account: string, line: string): (r: seq<Entry>)
    ensures var k := Position(b, account);
      && (k < |b| ==>
            |r| == |b| && r[k] == Entry(account, line) && forall i :: 0 <= i < |b| && i != k ==> r[i] == b[i])
      && (k == |b| ==> r == b + [Entry(account, line)])
  {
    if |b| == 0 then [Entry(account, line)]
    else if b[0].account == account then [Entry(account, line)] + b[1..]
    else [b[0]] + Upsert(b[1..], account, line)
  }

  /** After an upsert the board still has one entry per account. */
  lemma UpsertUnique(b: seq<Entry>, account: string, line: string)
    requires UniqueAccounts(b)
    ensures UniqueAccounts(Upsert(b, account, line))
  {
    var r := Upsert(b, account, line);
    var k := Position(b, account);
    if k == |b| {
      forall i, j | 0 <= i < j < |r|
        ensures r[i].account != r[j].account
      {
        if j == |b| {
          assert r[i] == b[i];
        }
      }
    } else {
      forall i, j | 0 <= i < j < |r|
        ensures r[i].account != r[j].account
      {
        if i != k && j != k {
          assert r[i] == b[i] && r[j] == b[j];
        } else if i == k {
          assert r[j] == b[j] && b[i].account == account;
        } else {
          assert r[i] == b[i] && b[j].account == account;
        }
      }
    }
  }

  /** After an upsert the account reads back the new line and every other account reads back
      what it had. */
  lemma UpsertLookup(b: seq<Entry>, account: string, line: string, other: string)
    ensures Lookup(Upsert(b, account, line), account) == Some(line)
    ensures other != account ==> Lookup(Upsert(b, account, line), other) == Lookup(b, other)
  {
    var r := Upsert(b, account, line);
    var k := Position(b, account);
    PositionUnique(r, account, k);
    if other != account {
      var q := Position(b, other);
      if q < |b| {
        assert r[q] == b[q];
        PositionUnique(r, other, q);
      } else {
        PositionUnique(r, other, |r|);
      }
    }
  }

  /** The ordering key: the first number in the account name (0 stands in for a name with
      none; such a name is never compared, see `Render`). */
  function Key(e: Entry): nat {
    FirstNumber(e.account).GetOr(0)
  }

  /** Ascending by `key`. */
  predicate SortedBy(s: seq<Entry>, key: Entry -> nat) {
    forall i, j :: 0 <= i < j < |s| ==> key(s[i]) <= key(s[j])
  }

  /** Put `x` after every entry whose key is not larger and before the first larger one. */
  function Insert(x: Entry, s: seq<Entry>, key: Entry -> nat): seq<Entry> {
    if |s| == 0 then [x]
    else if key(x) < key(s[0]) then [x] + s
    else [s[0]] + Insert(x, s[1..], key)
  }

  /** Inserting adds exactly `x`, and the first entry is either `x` or the old first entry. */
  lemma {:induction false} InsertShape(x: Entry, s: seq<Entry>, key: Entry -> nat)
    ensures multiset(Insert(x, s, key)) == multiset(s) + multiset{x}
    ensures |Insert(x, s, key)| == |s| + 1
    ensures Insert(x, s, key)[0] == x || (|s| > 0 && Insert(x, s, key)[0] == s[0])
    decreases |s|
  {
    if |s| > 0 && key(s[0]) <= key(x) {
      InsertShape(x, s[1..], key);
      assert s == [s[0]] + s[1..];
    }
  }

  /** Putting `x` in front of a sorted list whose first key exceeds `x`'s keeps it sorted. */
  lemma InsertSortedFront(x: Entry, s: seq<Entry>, key: Entry -> nat)
    requires SortedBy(s, key) && |s| > 0 && key(x) < key(s[0])
    ensures SortedBy(Insert(x, s, key), key)
  {
    var r := Insert(x, s, key);
    assert r == [x] + s;
    forall i, j | 0 <= i < j < |r|
      ensures key(r[i]) <= key(r[j])
    {
      assert r[j] == s[j - 1];
      if i > 0 {
        assert r[i] == s[i - 1];
      } else if j > 1 {
        assert key(s[0]) <= key(s[j - 1]);
      }
    }
  }

  /** Keeping the first entry of a sorted list in front of the sorted insertion into the rest
      keeps it sorted. */
  lemma InsertSortedPast(x: Entry, s: seq<Entry>, key: Entry -> nat)
    requires SortedBy(s, key) && |s| > 0 && key(s[0]) <= key(x)
    requires SortedBy(Insert(x, s[1..], key), key)
    ensures SortedBy(Insert(x, s, key), key)
  {
    var rest := Insert(x, s[1..], key);
    var r := Insert(x, s, key);
    InsertShape(x, s[1..], key);
    assert r == [s[0]] + rest;
    assert key(s[0]) <= key(rest[0]);
    forall i, j | 0 <= i < j < |r|
      ensures key(r[i]) <= key(r[j])
    {
      assert r[j] == rest[j - 1];
      if i > 0 {
        assert r[i] == rest[i - 1];
      } else if j > 1 {
        assert key(rest[0]) <= key(rest[j - 1]);
      }
    }
  }

  /** Inserting into a sorted list keeps it sorted. */
  lemma {:induction false} InsertSorted(x: Entry, s: seq<Entry>, key: Entry -> nat)
    requires SortedBy(s, key)
    ensures SortedBy(Insert(x, s, key), key)
    decreases |s|
  {
    if |s| > 0 {
      if key(x) < key(s[0]) {
        InsertSortedFront(x, s, key);
      } else {
        InsertSorted(x, s[1..], key);
        InsertSortedPast(x, s, key);
      }
    }
  }

  /** The comparator sort (`numA - numB`), which in JavaScript is stable: insertion of each
      entry in board order. */
  function SortBy(s: seq<Entry>, key: Entry -> nat): seq<Entry> {
    if |s| == 0 then [] else Insert(s[|s| - 1], SortBy(s[..|s| - 1], key), key)
  }

  /** The sort lists the same entries in ascending key order (equal keys keep board order, see
      `SortStable`). */
  lemma SortSorted(s: seq<Entry>, key: Entry -> nat)
    ensures SortedBy(SortBy(s, key), key)
    ensures multiset(SortBy(s, key)) == multiset(s)
  {
    SortOrdered(s, key);
    SortPermutes(s, key);
  }

  /** The sort's output is in ascending key order. */
  lemma {:induction false} SortOrdered(s: seq<Entry>, key: Entry -> nat)
    ensures SortedBy(SortBy(s, key), key)
    decreases |s|
  {
    if |s| > 0 {
      SortOrdered(s[..|s| - 1], key);
      InsertSorted(s[|s| - 1], SortBy(s[..|s| - 1], key), key);
    }
  }

  /** The sort's output lists the same entries as its input. */
  lemma {:induction false} SortPermutes(s: seq<Entry>, key: Entry -> nat)
    ensures multiset(SortBy(s, key)) == multiset(s)
    decreases |s|
  {
    if |s| > 0 {
      var front, last := s[..|s| - 1], s[|s| - 1];
      assert SortBy(s, key) == Insert(last, SortBy(front, key), key);
      SortPermutes(front, key);
      InsertShape(last, SortBy(front, key), key);
      assert s == front + [last];
      assert multiset(front + [last]) == multiset(front) + multiset{last};
    }
  }

  /** The entries whose key is `k`, in order. */
  function WithKey(s: seq<Entry>, key: Entry -> nat, k: nat): seq<Entry> {
    if |s| == 0 then []
    else WithKey(s[..|s| - 1], key, k) + (if key(s[|s| - 1]) == k then [s[|s| - 1]] else [])
  }

  lemma {:induction false} WithKeyConcat(a: seq<Entry>, b: seq<Entry>, key: Entry -> nat, k: nat)
    ensures WithKey(a + b, key, k) == WithKey(a, key, k) + WithKey(b, key, k)
    decreases |b|
  {
    if |b| == 0 {
      assert a + b == a;
    } else {
      assert (a + b)[..|a + b| - 1] == a + b[..|b| - 1];
      WithKeyConcat(a, b[..|b| - 1], key, k);
    }
  }

  /** No entry of `s` has key `k` when all of them are larger. */
  lemma {:induction false} WithKeyAbove(s: seq<Entry>, key: Entry -> nat, k: nat)
    requires forall i :: 0 <= i < |s| ==> k < key(s[i])
    ensures WithKey(s, key, k) == []
    decreases |s|
  {
    if |s| > 0 {
      WithKeyAbove(s[..|s| - 1], key, k);
    }
  }

  /** Inserting before entries whose keys all exceed `x`'s adds `x` to the end of its key's
      group. */
  lemma InsertFront(x: Entry, s: seq<Entry>, key: Entry -> nat, k: nat)
    requires SortedBy(s, key) && |s| > 0 && key(x) < key(s[0])
    ensures WithKey(Insert(x, s, key), key, k) == WithKey(s, key, k) + (if key(x) == k then [x] else [])
  {
    assert Insert(x, s, key) == [x] + s;
    WithKeyConcat([x], s, key, k);
    assert [x][..0] == [];
    if key(x) == k {
      WithKeyAbove(s, key, k);
      assert WithKey([x], key, k) == [x];
    } else {
      assert WithKey([x], key, k) == [];
    }
  }

  /** Inserting past the first entry: the first entry's group gains nothing from `x`'s insertion
      into the rest. */
  lemma InsertPast(x: Entry, s: seq<Entry>, key: Entry -> nat, k: nat)
    requires SortedBy(s, key) && |s| > 0 && key(s[0]) <= key(x)
    requires WithKey(Insert(x, s[1..], key), key, k) == WithKey(s[1..], key, k) + (if key(x) == k then [x] else [])
    ensures WithKey(Insert(x, s, key), key, k) == WithKey(s, key, k) + (if key(x) == k then [x] else [])
  {
    assert Insert(x, s, key) == [s[0]] + Insert(x, s[1..], key);
    WithKeyConcat([s[0]], Insert(x, s[1..], key), key, k);
    WithKeyConcat([s[0]], s[1..], key, k);
    assert s == [s[0]] + s[1..];
  }

  /** Inserting `x` adds it to the end of its own key's group and leaves other groups alone. */
  lemma {:induction false} InsertWithKey(x: Entry, s: seq<Entry>, key: Entry -> nat, k: nat)
    requires SortedBy(s, key)
    ensures WithKey(Insert(x, s, key), key, k) == WithKey(s, key, k) + (if key(x) == k then [x] else [])
    decreases |s|
  {
    if |s| == 0 {
      assert Insert(x, s, key) == [] + [x];
    } else if key(x) < key(s[0]) {
      InsertFront(x, s, key, k);
    } else {
      InsertWithKey(x, s[1..], key, k);
      InsertPast(x, s, key, k);
    }
  }

  /** Stability: the entries sharing a key come out in the order they had on the board. */
  lemma {:induction false} SortStable(s: seq<Entry>, key: Entry -> nat, k: nat)
    ensures WithKey(SortBy(s, key), key, k) == WithKey(s, key, k)
    decreases |s|
  {
    if |s| > 0 {
      SortStable(s[..|s| - 1], key, k);
      SortSorted(s[..|s| - 1], key);
      InsertWithKey(s[|s| - 1], SortBy(s[..|s| - 1], key), key, k);
    }
  }

  /** Why a redraw throws: the comparator reads the digits of a name that has none. */
  datatype RenderError = NameWithoutNumber

  /** Some entry's account name holds no digit. */
  predicate HasKeylessName(b: seq<Entry>) {
    exists i :: 0 <= i < |b| && NoDigits(b[i].account)
  }

  /** The order of a redraw: the board entries by ascending first number in the account name.
      With two or more entries every name is compared, so a name without a digit makes the
      sort throw. */
  function Render(b: seq<Entry>): (r: Result<seq<Entry>, RenderError>)
    ensures r.Failure? <==> |b| >= 2 && HasKeylessName(b)
    ensures r.Success? ==> SortedBy(r.value, Key) && multiset(r.value) == multiset(b)
    ensures r.Success? ==> |r.value| == |b|
  {
    if |b| >= 2 && HasKeylessName(b) then Failure(NameWithoutNumber)
    else
      SortSorted(b, Key);
      assert |multiset(SortBy(b, Key))| == |multiset(b)|;
      Success(SortBy(b, Key))
  }

  /** `out` is the lines of the entries of `order`, one each, in that order. */
  predicate Lists(out: seq<string>, order: seq<Entry>) {
    |out| == |order| && forall i :: 0 <= i < |order| ==> out[i] == order[i].line
  }

  /** The printed lines of a redraw: the optional headline, then each entry's line. */
  function Screen(headline: Option<string>, order: seq<Entry>): (r: seq<string>)
    ensures |r| == |order| + (if headline.Some? then 1 else 0)
    ensures headline.Some? ==> r[0] == headline.value
    ensures Lists(r[|r| - |order|..], order)
  {
    var head := if headline.Some? then [headline.value] else [];
    var lines := seq(|order|, i requires 0 <= i < |order| => order[i].line);
    assert (head + lines)[|head|..] == lines;
    head + lines
  }

  /** Clear the console and print the headline and the sorted board, or throw. */
  function Draw(headline: Option<string>, b: seq<Entry>): (r: Result<seq<string>, RenderError>)
    ensures r.Failure? <==> Render(b).Failure?
    ensures r.Success? ==> |r.value| == |b| + (if headline.Some? then 1 else 0)
    ensures r.Success? && headline.Some? ==> r.value[0] == headline.value
    ensures r.Success? ==> Render(b).Success? && Lists(r.value[|r.value| - |b|..], Render(b).value)
  {
    match Render(b)
    case Success(order) =>
      var out := Screen(headline, order);
      Success(out)
    case Failure(e) => Failure(e)
  }


  /** index.js `log`. An in-place message replaces the account's board line, and the board is
      redrawn only when the throttle is due (`due` stands for the clock test); any other message
      is shown above a redraw of the unchanged board. The line on the board and the message
      shown both carry the `[account] ` prefix. */
  function Log(b: seq<Entry>, account: string, message: string, inPlace: bool, due: bool)
    : (r: (seq<Entry>, Option<Result<seq<string>, RenderError>>))
    ensures inPlace ==>
      && r.0 == Upsert(b, account, "[" + account + "] " + message)
      && (r.1.Some? <==> due)
      && (due ==> (r.1.value.Failure? <==> Render(r.0).Failure?))
      && (due && r.1.value.Success? ==> Render(r.0).Success? && Lists(r.1.value.value, Render(r.0).value))
    ensures !inPlace ==>
      && r.0 == b
      && r.1.Some?
      && (r.1.value.Failure? <==> Render(b).Failure?)
      && (r.1.value.Success? ==>
            && |r.1.value.value| == |b| + 1
            && r.1.value.value[0] == "[" + account + "] " + message
            && Render(b).Success? && Lists(r.1.value.value[1..], Render(b).value))
  {
    var full := "[" + account + "] " + message;
    if inPlace then
      var b' := Upsert(b, account, full);
      (b', if due then Some(Draw(None, b')) else None)
    else (b, Some(Draw(Some(full), b)))
  }

  /** The key of a name made of a digit-free prefix and a rendered number is that number. */
  lemma NumberedKey(prefix: string, n: nat, line: string)
    requires NoDigits(prefix)
    ensures Key(Entry(prefix + NatToString(n), line)) == n
    ensures !NoDigits(prefix + NatToString(n))
  {
    NumberRoundTrip(prefix, n);
  }

  /** The key of any name is the value of its first digit run, whatever follows it. */
  lemma FirstRunKey(prefix: string, digits: string, rest: string, line: string)
    requires NoDigits(prefix) && AllDigits(digits) && |digits| >= 1
    requires |rest| == 0 || !IsDigit(rest[0])
    ensures Key(Entry(prefix + digits + rest, line)) == Value(digits)
  {
    FirstRun(prefix, digits, rest);
  }

  /** Names numbered 2, 10 and 1 (with any digit-free prefix, such as `Wallet-`) are listed as
      1, 2, 10: the order is numeric, not textual. */
  lemma RenderExample(prefix: string, one: string, two: string, ten: string)
    requires NoDigits(prefix)
    ensures Render([Entry(prefix + NatToString(2), two), Entry(prefix + NatToString(10), ten), Entry(prefix + NatToString(1), one)])
      == Success([Entry(prefix + NatToString(1), one), Entry(prefix + NatToString(2), two), Entry(prefix + NatToString(10), ten)])
  {
    var w2, w10, w1 := Entry(prefix + NatToString(2), two), Entry(prefix + NatToString(10), ten), Entry(prefix + NatToString(1), one);
    NumberedKey(prefix, 2, two);
    NumberedKey(prefix, 10, ten);
    NumberedKey(prefix, 1, one);
    var b := [w2, w10, w1];
    assert !HasKeylessName(b);
    assert b[..2] == [w2, w10] && [w2, w10][..1] == [w2] && [w2][..0] == [];
    assert SortBy([w2], Key) == [w2];
    assert Insert(w10, [w2], Key) == [w2, w10];
    assert SortBy([w2, w10], Key) == [w2, w10];
    assert Insert(w1, [w2, w10], Key) == [w1, w2, w10];
  }
}

=== FILE: text.dfy ===
/** String helpers with JavaScript's meaning: `split` on one character and `trim`. */
module Text {

  /** Index of the first `c` in `s`, or `|s|` when there is none. */
  function Find(s: string, c: char): (k: nat)
    ensures k <= |s|
    ensures forall j :: 0 <= j < k ==> s[j] != c
    ensures k < |s| ==> s[k] == c
  {
    if |s| == 0 || s[0] == c then 0 else 1 + Find(s[1..], c)
  }

  /** Glue `parts` back together with `sep` between consecutive parts (`Array.join`). */
  function Join(parts: seq<string>, sep: char): string
    requires |parts| >= 1
  {
    if |parts| == 1 then parts[0] else parts[0] + [sep] + Join(parts[1..], sep)
  }

  /** `s.split(sep)`: the pieces between occurrences of `sep`, empty pieces included. */
  function Split(s: string, sep: char): (parts: seq<string>)
    ensures |parts| >= 1
    ensures forall i :: 0 <= i < |parts| ==> sep !in parts[i]
    ensures Join(parts, sep) == s
    decreases |s|
  {
    var k := Find(s, sep);
    if k == |s| then
      assert sep !in s;
      [s]
    else
      var rest := Split(s[k + 1..], sep);
      var parts := [s[..k]] + rest;
      assert parts[1..] == rest;
      assert s == s[..k] + [sep] + s[k + 1..];
      parts
  }

  /** The first separator in `a + [sep] + b` is the one right after `a`, when `a` holds none. */
  lemma {:induction false} FindAfter(a: string, sep: char, b: string)
    requires sep !in a
    ensures Find(a + [sep] + b, sep) == |a|
  {
    if |a| > 0 {
      assert (a + [sep] + b)[1..] == a[1..] + [sep] + b;
      FindAfter(a[1..], sep, b);
    }
  }

  /** Splitting what was joined gives the parts back, when no part holds the separator. */
  lemma {:induction false} SplitJoin(parts: seq<string>, sep: char)
    requires |parts| >= 1
    requires forall i :: 0 <= i < |parts| ==> sep !in parts[i]
    ensures Split(Join(parts, sep), sep) == parts
    decreases |parts|
  {
    var s := Join(parts, sep);
    if |parts| == 1 {
      assert Find(s, sep) == |s|;
    } else {
      var head := parts[0];
      var tail := Join(parts[1..], sep);
      assert s == head + [sep] + tail;
      FindAfter(head, sep, tail);
      assert s[..|head|] == head;
      assert s[|head| + 1..] == tail;
      SplitJoin(parts[1..], sep);
      assert parts == [head] + parts[1..];
    }
  }

  /** The characters `String.prototype.trim` removes: ECMAScript WhiteSpace and LineTerminator. */
  predicate IsSpace(c: char) {
    || c == ' ' || c == '\t' || c == '\n' || c == '\r'
    || c == '\U{000B}' || c == '\U{000C}' || c == '\U{00A0}' || c == '\U{FEFF}'
    || c == '\U{1680}' || ('\U{2000}' <= c <= '\U{200A}') || c == '\U{2028}' || c == '\U{2029}'
    || c == '\U{202F}' || c == '\U{205F}' || c == '\U{3000}'
  }

  /** The number of leading white-space characters of `s`. */
  function Lead(s: string): (k: nat)
    ensures k <= |s|
    ensures forall i :: 0 <= i < k ==> IsSpace(s[i])
    ensures k < |s| ==> !IsSpace(s[k])
  {
    if |s| > 0 && IsSpace(s[0]) then 1 + Lead(s[1..]) else 0
  }

  /** The end of `s` once its trailing white space is cut, never below `lo`. */
  function End(s: string, lo: nat): (k: nat)
    requires lo <= |s|
    ensures lo <= k <= |s|
    ensures forall i :: k <= i < |s| ==> IsSpace(s[i])
    ensures k > lo ==> !IsSpace(s[k - 1])
  {
    if |s| > lo && IsSpace(s[|s| - 1]) then End(s[..|s| - 1], lo) else |s|
  }

  /** `s.trim()`: the slice of `s` between its leading and its trailing white space. Neither end
      of the result is white space, and only white space lies outside it. */
  function Trim(s: string): (r: string)
    ensures |r| > 0 ==> !IsSpace(r[0]) && !IsSpace(r[|r| - 1])
    ensures var lead := Lead(s);
            && lead + |r| <= |s|
            && r == s[lead..lead + |r|]
            && (forall i :: 0 <= i < lead ==> IsSpace(s[i]))
            && (forall i :: lead + |r| <= i < |s| ==> IsSpace(s[i]))
  {
    s[Lead(s)..End(s, Lead(s))]
  }

  /** Trimming twice is trimming once. */
  lemma TrimIdempotent(s: string)
    ensures Trim(Trim(s)) == Trim(s)
  {
    var t := Trim(s);
    assert Lead(t) == 0;
    assert End(t, 0) == |t|;
  }
}

=== FILE: transfer.dfy ===
/** index.js `sendPoints`: split the largest affordable amount evenly over the configured
    recipients and run the decaying retry loop for each, charging the local score for every
    accepted transfer. */
module Transfer {
  import opened Wrappers
  import opened Fees
  import opened Retry

  /** The transfer gate: level at least 5 and score at least 2000. */
  const MinLevel := 5
  const MinScore := 2000

  predicate Eligible(level: int, score: int) {
    level >= MinLevel && score >= MinScore
  }

  /** `Math.floor(total / count)`: the same share for every recipient, remainder dropped. */
  function Share(total: int, count: int): int
    requires count >= 1
  {
    total / count
  }

  /** The share is the quotient of an even split: `count` shares fit in the total, and what is
      left over is less than one share per recipient. */
  lemma ShareBounds(total: int, count: int)
    requires count >= 1
    ensures count * Share(total, count) <= total < count * Share(total, count) + count
    ensures total >= 0 ==> Share(total, count) >= 0
  {
  }

  /** What an outcome takes from the local score: the amount plus its fee when delivered. */
  function Cost(d: Delivery): int {
    if d.Delivered? then d.amount + Fee(d.amount) else 0
  }

  /** Total taken from the local score by a run of outcomes. */
  function Deducted(ds: seq<Delivery>): int {
    if |ds| == 0 then 0 else Deducted(ds[..|ds| - 1]) + Cost(ds[|ds| - 1])
  }

  /** The replies the remote side gives to the attempts for recipient `j` (none when absent). */
  function RepliesFor(replies: seq<seq<bool>>, j: int): seq<bool> {
    At(replies, j, [])
  }

  /** The fee of `count` equal shares is at most the fee of their sum: `k * floor(s / 10) <= floor(k * s / 10)`. */
  lemma FeeOfShares(count: nat, s: int)
    ensures count * Fee(s) <= Fee(count * s)
  {
  }

  /** Multiplying by a non-negative factor keeps an inequality. */
  lemma {:induction false} MulMonotone(k: nat, a: int, b: int)
    requires a <= b
    ensures k * a <= k * b
  {
    if k > 0 {
      MulMonotone(k - 1, a, b);
      assert k * a == (k - 1) * a + a;
      assert k * b == (k - 1) * b + b;
    }
  }

  /** Outcomes that each cost at most `c` cost at most `c` per outcome together. */
  lemma {:induction false} DeductedBound(ds: seq<Delivery>, c: int)
    requires forall i :: 0 <= i < |ds| ==> Cost(ds[i]) <= c
    ensures Deducted(ds) <= |ds| * c
    decreases |ds|
  {
    if |ds| > 0 {
      var front := ds[..|ds| - 1];
      DeductedBound(front, c);
      assert |ds| * c == |front| * c + c;
    }
  }

  /** Charging every recipient its full share plus fee never costs more than the total plus its fee. */
  lemma SplitAffordable(total: int, count: int)
    requires total >= 0 && count >= 1
    ensures count * (Share(total, count) + Fee(Share(total, count))) <= total + Fee(total)
  {
  }

  /** Appending one outcome adds its cost. */
  lemma DeductedAppend(ds: seq<Delivery>, d: Delivery)
    ensures Deducted(ds + [d]) == Deducted(ds) + Cost(d)
  {
    assert (ds + [d])[..|ds|] == ds;
  }

  /** Reference outcomes for the first `n` recipients, each served from the same share. */
  function Offers(p: Policy, share: int, replies: seq<seq<bool>>, n: nat): seq<Delivery> {
    if n == 0 then [] else Offers(p, share, replies, n - 1) + [Outcome(p, share, RepliesFor(replies, n - 1))]
  }

  /** Recipient `j`'s reference outcome is the retry loop's outcome on its own replies, and a
      delivered amount lies between 1 and the share. */
  lemma {:induction false} OffersMeaning(p: Policy, share: int, replies: seq<seq<bool>>, n: nat)
    requires Shrinks(p)
    ensures |Offers(p, share, replies, n)| == n
    ensures forall j :: 0 <= j < n ==> Offers(p, share, replies, n)[j] == Outcome(p, share, RepliesFor(replies, j))
    ensures forall j :: 0 <= j < n && Offers(p, share, replies, n)[j].Delivered? ==>
      1 <= Offers(p, share, replies, n)[j].amount <= share
  {
    if n > 0 {
      var front := Offers(p, share, replies, n - 1);
      var all := Offers(p, share, replies, n);
      OffersMeaning(p, share, replies, n - 1);
      OutcomeBounds(p, share, RepliesFor(replies, n - 1));
      assert all == front + [Outcome(p, share, RepliesFor(replies, n - 1))];
      assert forall j :: 0 <= j < n - 1 ==> all[j] == front[j];
    }
  }

  /** An outcome that delivers at most `share` costs at most the share plus its fee. */
  lemma CostWithinShare(d: Delivery, share: int)
    requires share >= 0 && (d.Delivered? ==> d.amount <= share)
    ensures Cost(d) <= share + Fee(share)
  {
    if d.Delivered? {
      CostMonotone(d.amount, share);
    }
  }

  /** Outcomes that each deliver at most the even share of the largest affordable amount never
      take the score below zero. */
  lemma WithinBudget(score: int, count: int, ds: seq<Delivery>)
    requires score >= 0 && count >= 1 && |ds| == count
    requires forall j :: 0 <= j < |ds| && ds[j].Delivered? ==> 1 <= ds[j].amount <= Share(MaxSendable(score), count)
    ensures Deducted(ds) <= score
  {
    var share := Share(MaxSendable(score), count);
    ShareBounds(MaxSendable(score), count);
    forall j | 0 <= j < |ds|
      ensures Cost(ds[j]) <= share + Fee(share)
    {
      CostWithinShare(ds[j], share);
    }
    DeductedBound(ds, share + Fee(share));
    SplitAffordable(MaxSendable(score), count);
    assert count * (share + Fee(share)) <= score;
  }

  /** The retry loop for one recipient, starting from its share. */
  method OfferShare(p: Policy, share: int, replies: seq<bool>) returns (d: Delivery)
    requires Shrinks(p) && share >= 0
    ensures d == Outcome(p, share, replies)
    ensures d.Delivered? ==> 1 <= d.amount <= share
    ensures Cost(d) <= share + Fee(share)
  {
    var tried, success := RetryLoop(p, share, replies);
    OutcomeBounds(p, share, replies);
    if success {
      d := Delivered(tried[|tried| - 1]);
      CostMonotone(d.amount, share);
    } else {
      d := Undelivered;
    }
  }

  /** One turn of the recipient loop: serve the next recipient, charge an accepted transfer and
      remember that something went through. */
  method ServeNext(p: Policy, share: int, replies: seq<seq<bool>>, score: int,
                   ok: bool, remaining: int, deliveries: seq<Delivery>)
    returns (ok': bool, remaining': int, deliveries': seq<Delivery>)
    requires Shrinks(p) && share >= 0
    requires deliveries == Offers(p, share, replies, |deliveries|)
    requires remaining == score - Deducted(deliveries)
    requires ok <==> exists i :: 0 <= i < |deliveries| && deliveries[i].Delivered?
    ensures deliveries' == Offers(p, share, replies, |deliveries| + 1)
    ensures remaining' == score - Deducted(deliveries')
    ensures ok' <==> exists i :: 0 <= i < |deliveries'| && deliveries'[i].Delivered?
  {
    var d := OfferShare(p, share, RepliesFor(replies, |deliveries|));
    ok', remaining' := ok, remaining;
    if d.Delivered? {
      remaining' := remaining - (d.amount + Fee(d.amount));
      ok' := true;
    }
    DeductedAppend(deliveries, d);
    deliveries' := deliveries + [d];
    if !ok' {
      forall i | 0 <= i < |deliveries'|
        ensures !deliveries'[i].Delivered?
      {
        if i < |deliveries| {
          assert deliveries'[i] == deliveries[i];
        }
      }
    }
  }

  /** The body of `sendPoints` for any shrinking retry policy: give every recipient the same
      share of the largest affordable amount and charge each accepted transfer. */
  method Distribute(p: Policy, score: int, targets: seq<string>, replies: seq<seq<bool>>)
    returns (ok: bool, remaining: int, deliveries: seq<Delivery>)
    requires Shrinks(p) && |targets| > 0 && score >= 0
    ensures var share := Share(MaxSendable(score), |targets|);
      && |deliveries| == |targets|
      && (forall j :: 0 <= j < |targets| ==> deliveries[j] == Outcome(p, share, RepliesFor(replies, j)))
      && (forall j :: 0 <= j < |targets| && deliveries[j].Delivered? ==> 1 <= deliveries[j].amount <= share)
      && remaining == score - Deducted(deliveries)
      && remaining >= 0
      && (ok <==> exists j :: 0 <= j < |deliveries| && deliveries[j].Delivered?)
  {
    var maxSend := ComputeMaxSendAmount(score);
    var share := Share(maxSend, |targets|);
    ShareBounds(maxSend, |targets|);
    ok := false;
    remaining := score;
    deliveries := [];
    var j := 0;
    while j < |targets|
      invariant 0 <= j <= |targets| && |deliveries| == j
      invariant deliveries == Offers(p, share, replies, j)
      invariant remaining == score - Deducted(deliveries)
      invariant ok <==> exists i :: 0 <= i < j && deliveries[i].Delivered?
    {
      ok, remaining, deliveries := ServeNext(p, share, replies, score, ok, remaining, deliveries);
      j := j + 1;
    }
    OffersMeaning(p, share, replies, |targets|);
    WithinBudget(score, |targets|, deliveries);
  }

  /** `sendPoints`: nothing happens without recipients or below the gate; otherwise the
      recipients are served in order with index.js's decaying retry policy. */
  method SendPoints(level: int, score: int, targets: seq<string>, replies: seq<seq<bool>>)
    returns (ok: bool, remaining: int, deliveries: seq<Delivery>)
    ensures |targets| == 0 || !Eligible(level, score) ==> !ok && remaining == score && deliveries == []
    ensures |targets| > 0 && Eligible(level, score) ==>
      var share := Share(MaxSendable(score), |targets|);
      && |deliveries| == |targets|
      && (forall j :: 0 <= j < |targets| ==> deliveries[j] == Outcome(Decay, share, RepliesFor(replies, j)))
      && (forall j :: 0 <= j < |targets| && deliveries[j].Delivered? ==> 1 <= deliveries[j].amount <= share)
      && remaining == score - Deducted(deliveries)
      && remaining >= 0
      && (ok <==> exists j :: 0 <= j < |deliveries| && deliveries[j].Delivered?)
  {
    if |targets| == 0 {
      return false, score, [];
    }
    if !(level >= MinLevel && score >= MinScore) {
      return false, score, [];
    }
    DecayShrinks();
    ok, remaining, deliveries := Distribute(Decay, score, targets, replies);
  }
}

=== FILE: wrappers.dfy ===
/** Small failure-carrying datatypes shared by the other modules. */
module Wrappers {

  /** A value that may be absent: a JavaScript `null`/`undefined` or a call that threw. */
  datatype Option<+T> = None | Some(value: T) {

    /** The carried value, or `default` when absent. */
    function GetOr(default: T): T {
      match this
      case Some(v) => v
      case None => default
    }
  }

  /** A computation that either produced a value or stopped with an error. */
  datatype Result<+R, +E> = Success(value: R) | Failure(error: E)

  /** The entry at `i` of an oracle sequence (the replies a remote service gives, in order),
      or `absent` past its end. */
  function At<T>(xs: seq<T>, i: int, absent: T): T {
    if 0 <= i < |xs| then xs[i] else absent
  }
}
